=== FILE: README.md ===
# ai-ticket-assistant: a Dafny model of the ticket, comment and analytics controllers

This project models the request handlers of the ai-ticket-assistant backend.
A logged-in user raises support tickets, comments on them and reads a dashboard.
Moderators and admins see everything; an ordinary `user` sees only its own tickets.
The modelled parts are:

- `authenticate` (`middlewares/auth.js`): reads the bearer token from the
  Authorization header, has it verified and attaches the decoded caller.
- `createTicket`, `getTickets`, `getTicket` (`controllers/ticket.js`):
  creation with its "ticket/created" event, the searchable and sortable
  listing with its role-dependent projection, and the scoped single fetch.
- `addComment`, `getComments`, `deleteComment` (`controllers/comment.js`):
  the owner-or-staff gate on the parent ticket, and deletion by the comment's
  author or an admin.
- `getDashboardAnalytics`, `getUserStats` (`controllers/analytics.js`):
  totals, breakdowns by status, priority and role, the trailing seven-day
  window bucketed by day, the five most frequent skills, and per-caller stats.

Every handler is a pure function. It takes the store (tickets, comments,
users and the log of sent events), the authenticated caller and the request
fields. It returns an HTTP status with its body, together with the store it
leaves behind. Request fields are `Option<string>`, and `Present` is
JavaScript truthiness: present and non-empty. MongoDB queries become
functions over sequences:

- `find` is `Filter`, and `.sort` is an insertion sort proved to permute and order.
- `$group … $sum: 1` is `Grouping.Group`, which counts in order of first occurrence.
- The `reduce` that turns group output into a JSON object is `Grouping.ToObject`.
  The object is a sequence of entries in property-insertion order.

Inputs the handlers cannot compute are parameters:

- the current time (milliseconds since the epoch);
- whether the event transport accepted the message;
- the JWT verifier, a function from token to `Option<Identity>`.

Fresh ids are one more than the largest id in use.

Files:

- `common.dfy`: `Option`, `Outcome`, HTTP codes and messages.
- `sequences.dfy`: filter, map and sort.
- `text.dfy`: case-insensitive search, string order, `split`.
- `grouping.dfy`: group and reduce.
- `domain.dfy`: records, store, access rules, lookups.
- `tickets.dfy`, `comments.dfy`, `analytics.dfy`, `auth.dfy`: the handlers.

## Model

| member | source | states |
|---|---|---|
| `Tickets.CreateTicket` | ai-ticket-assistant/controllers/ticket.js:5-38 | A missing or empty title or description gives 400 with the store unchanged. Otherwise exactly one ticket is appended, with a fresh id, the caller as creator and the schema defaults: status TODO, no priority, no assignee, no skills. When the transport accepts, the response is 201 and one `ticket/created` event carries the ticket's id, title, description and creator. When it fails, the response is 500, no event is logged, and the ticket stays persisted. |
| `Tickets.CreateTicketPreservesValid` | ai-ticket-assistant/controllers/ticket.js:15-19 | Creating a ticket keeps ticket ids unique. |
| `Tickets.SelectTickets` | ai-ticket-assistant/controllers/ticket.js:47-86 | The listed tickets are exactly the stored tickets that pass the query, each as often as it is stored. The query is: ownership for role `user`; title or description search; exact status; exact priority. The list is ordered on the sort field, ascending iff `order` is exactly "asc". |
| `Tickets.GetTickets` | ai-ticket-assistant/controllers/ticket.js:42-93 | The response is always 200, with one view per selected ticket, in order. A `user` gets the summary projection, which keeps priority. Staff get the full projection with `assignedTo` populated from the users. |
| `Tickets.UserListsOnlyOwnTickets` | ai-ticket-assistant/controllers/ticket.js:49-52 | Every ticket listed for a `user` is one it created, in the summary projection. |
| `Tickets.SearchSelectsTitleOrDescription` | ai-ticket-assistant/controllers/ticket.js:54-60 | With a search text, a visible ticket passing the other filters is listed iff the text occurs, ignoring case, in its title or in its description. |
| `Tickets.StaffUnfilteredListsEverything` | ai-ticket-assistant/controllers/ticket.js:78-81 | For staff, a query with no search, status or priority lists every stored ticket exactly as often as it is stored. |
| `Tickets.UserSelectionWithinStaffSelection` | ai-ticket-assistant/controllers/ticket.js:49-52 | Whatever the query, a ticket listed for a `user` is listed for staff as well. |
| `Tickets.GetTicket` | ai-ticket-assistant/controllers/ticket.js:96-120 | The response is 200 iff a ticket with the id exists that the caller may access; otherwise it is the 404 "Ticket not found". A `user` gets the detail projection, without priority; staff get the full, populated projection of that ticket. |
| `Tickets.ForeignTicketLooksMissing` | ai-ticket-assistant/controllers/ticket.js:104-113 | When a `user` fetches another user's ticket, the response is identical to the one for a nonexistent id: 404. |
| `Tickets.StaffFetchesAnyTicket` | ai-ticket-assistant/controllers/ticket.js:101-103 | When ids are unique, staff fetching any stored ticket's id get that ticket, fully populated. |
| `Tickets.CreatedTicketVisibility` | ai-ticket-assistant/controllers/ticket.js:15-88 | A ticket created by one `user` is listed for that user as a summary with the defaults. It is not listed for another `user`. It is listed for staff with no assignee. |
| `Domain.Populate` | ai-ticket-assistant/controllers/ticket.js:80 | A populated reference is the id and email of an existing user with the referenced id. It is null iff there is no reference or no such user. |
| `Domain.FindTicket` | ai-ticket-assistant/controllers/ticket.js:102 | `findById` returns a stored ticket with the id, and nothing iff no stored ticket has it. |
| `Domain.FindOwnedTicket` | ai-ticket-assistant/controllers/ticket.js:105-108 | `findOne` by creator and id returns a stored ticket matching both, and nothing iff none does. |
| `Domain.FindComment` | ai-ticket-assistant/controllers/comment.js:79 | Gives the position of the first comment with the id; nothing iff no comment has it. |
| `Domain.NextTicketId` | ai-ticket-assistant/controllers/ticket.js:15 | A new ticket id differs from every stored ticket's id. |
| `Domain.NextCommentId` | ai-ticket-assistant/controllers/comment.js:26 | A new comment id differs from every stored comment's id. |
| `Domain.FindTicketUnique` | ai-ticket-assistant/controllers/ticket.js:102 | When ids are unique, `findById` returns the one ticket carrying the id. |
| `Comments.TicketGate` | ai-ticket-assistant/controllers/comment.js:14-24 | Gives 404 when the ticket is missing, and 403 when a `user` does not own it. Passes iff the ticket exists and the caller may access it. |
| `Comments.AddComment` | ai-ticket-assistant/controllers/comment.js:5-43 | Checks run in the order 400 (missing content), 404, 403, each failure leaving the store unchanged. Success happens iff all three checks pass. It appends exactly one comment: the caller is its author, the path ticket its ticket, it has the content, the time and a fresh id. The 201 body is that comment with its author populated. Nothing else changes. |
| `Comments.CommentsOf` | ai-ticket-assistant/controllers/comment.js:62-64 | The listing holds exactly the comments of that ticket, each as often as stored, in ascending creation time. |
| `Comments.GetComments` | ai-ticket-assistant/controllers/comment.js:46-71 | Gives the same 404 and 403 as adding. Otherwise the response is 200 with the ticket's comments in creation order, authors populated. |
| `Comments.CommentsRevealForeignTicket` | ai-ticket-assistant/controllers/comment.js:50-60 | A `user` who does not own an existing ticket gets 403, not 404, on listing and on adding, so the comment routes reveal that the ticket exists. |
| `Comments.StaffPassTicketGate` | ai-ticket-assistant/controllers/comment.js:56-60 | Moderators and admins always list and always add with content on any existing ticket. |
| `Comments.DeleteComment` | ai-ticket-assistant/controllers/comment.js:74-96 | A missing comment gives 404, and 403 unless the caller is an admin or the author, each with the store unchanged. Success happens iff the comment exists and the caller may delete it. It answers 200 "Comment deleted successfully" and removes exactly that occurrence, keeping the others in order. |
| `Comments.DeleteRemovesExactlyThatComment` | ai-ticket-assistant/controllers/comment.js:85-91 | When ids are unique, after a successful delete the remaining comments are exactly the former ones minus the one with the id. |
| `Comments.ModeratorCannotDeleteOthers` | ai-ticket-assistant/controllers/comment.js:84-87 | A moderator deleting another user's comment gets 403 and the store is unchanged. |
| `Comments.RefusedDeleteKeepsComment` | ai-ticket-assistant/controllers/comment.js:79-87 | After a refused delete, every comment listing is as it was. |
| `Comments.AddCommentPreservesValid` | ai-ticket-assistant/controllers/comment.js:26-30 | Adding a comment keeps comment ids unique. |
| `Comments.DeleteCommentPreservesValid` | ai-ticket-assistant/controllers/comment.js:89 | Deleting a comment keeps comment ids unique. |
| `Grouping.Group` | ai-ticket-assistant/controllers/analytics.js:18 | A counting group stage gives one entry per distinct key occurring in the input and no other. Each entry's count is the key's number of occurrences, counts are positive, and the counts add up to the input length. |
| `Grouping.Put` | ai-ticket-assistant/controllers/analytics.js:67 | Assigning an object property stores the value under the key and leaves every other property's value alone. A new key is appended after the existing properties; an existing one is overwritten in place: every property keeps its position and the object keeps its size. |
| `Grouping.ToObject` | ai-ticket-assistant/controllers/analytics.js:66-69 | When group keys are distinct and labelled injectively, the reduce overwrites nothing. The object holds each entry's count under its label, in order, and the total is kept. |
| `Analytics.LabelsInjective` | ai-ticket-assistant/controllers/analytics.js:66-78 | No two statuses, no two priorities and no two roles share a property name. "unknown" is distinct from every status and priority name. |
| `Analytics.ObjectOfGroup` | ai-ticket-assistant/controllers/analytics.js:66-69 | Grouping then reducing under an injective labelling gives every key's occurrence count under its label. All properties are positive, total the input length, and label occurring keys only. |
| `Analytics.StatusBreakdown` | ai-ticket-assistant/controllers/analytics.js:17-19 | `ticketsByStatus` holds under each status name, and under "unknown" for a null status, the number of tickets with that status. Its values sum to the number of tickets. |
| `Analytics.PriorityBreakdown` | ai-ticket-assistant/controllers/analytics.js:21-25 | `ticketsByPriority` counts only tickets with a priority. Each priority name holds that priority's number of tickets; there is no "unknown" property; the sum is the number of prioritized tickets, at most the total. |
| `Analytics.PriorityCounts` | ai-ticket-assistant/controllers/analytics.js:23 | Dropping the null-priority tickets leaves every priority's count unchanged. |
| `Analytics.PriorityKeysKnown` | ai-ticket-assistant/controllers/analytics.js:70-73 | Grouping only prioritized tickets never produces the "unknown" property. |
| `Analytics.UnassignedCount` | ai-ticket-assistant/controllers/analytics.js:27-28 | The unassigned and assigned tickets together are all tickets; the count is zero iff every ticket is assigned. |
| `Analytics.RoleBreakdown` | ai-ticket-assistant/controllers/analytics.js:30-33 | `usersByRole` holds under each role name the number of users with that role, and its values sum to the number of users. |
| `Analytics.Recent` | ai-ticket-assistant/controllers/analytics.js:35-41 | The recent tickets are exactly the stored tickets created no earlier than seven days before now, each counted as often as it is stored, so their number is the `countDocuments` result. |
| `Analytics.DayOfMonotone` | ai-ticket-assistant/controllers/analytics.js:48 | A later time never falls on an earlier day. |
| `Analytics.TicketsPerDay` | ai-ticket-assistant/controllers/analytics.js:43-53 | There is one entry per day on which a recent ticket was created, strictly ascending by day and on or after the window's first day. Each count is that day's number of recent tickets, so none is zero, and the counts sum to `recentTickets`. |
| `Analytics.Skills` | ai-ticket-assistant/controllers/analytics.js:57 | Unwinding gives a skill iff some ticket lists it. |
| `Analytics.SkillsAppend` | ai-ticket-assistant/controllers/analytics.js:57 | The unwound skills of two ticket collections are, as a multiset, the sum of each collection's. |
| `Analytics.SkillsOne` | ai-ticket-assistant/controllers/analytics.js:57 | A single ticket unwinds to exactly its own skill list, duplicates included; with `SkillsAppend` this fixes the unwound multiset of any collection. |
| `Analytics.DuplicateSkillCountsTwice` | ai-ticket-assistant/controllers/analytics.js:57-58 | A skill listed twice by one ticket is counted twice. |
| `Analytics.RankedSkills` | ai-ticket-assistant/controllers/analytics.js:56-59 | Every skill appears once, with its number of occurrences, in non-increasing order of count. |
| `Analytics.TopSkills` | ai-ticket-assistant/controllers/analytics.js:55-61 | At most five distinct skills, in non-increasing order of count, each count being its occurrence count. A skill left out means five are listed, and it occurs no more often than the fifth. |
| `Analytics.TopOmitted` | ai-ticket-assistant/controllers/analytics.js:59-60 | After sorting by count and keeping the first five, no omitted key has a larger count than the last one kept. |
| `Analytics.GetDashboardAnalytics` | ai-ticket-assistant/controllers/analytics.js:5-88 | A `user` gets 403 and staff get 200. Each aggregate agrees with the store:<br>- status, priority and role counts per name;<br>- unassigned plus assigned is the total;<br>- priority counts cover exactly the prioritized tickets, with no "unknown" group;<br>- the recent count, with `ticketsPerDay` exactly the per-day breakdown of `TicketsPerDay`;<br>- `topSkills` exactly the ranking of `TopSkills`;<br>- the status, priority and role objects are exactly `StatusBreakdown`, `PriorityBreakdown` and `RoleBreakdown`, so every property listed counts at least one document. |
| `Analytics.Own` | ai-ticket-assistant/controllers/analytics.js:95-98 | The caller's tickets are exactly the stored tickets it created, each as often as stored. |
| `Analytics.GetUserStats` | ai-ticket-assistant/controllers/analytics.js:91-115 | Any caller gets 200 with the number of tickets it created and their status breakdown, which sums to that number and counts no other ticket. The breakdown is exactly the status grouping of the caller's tickets, so every listed status counts at least one of them. |
| `Analytics.SoleOwnerStatsMatchDashboard` | ai-ticket-assistant/controllers/analytics.js:91-110 | When one user created every ticket, its stats total equals the dashboard total. |
| `Text.MatchesIgnoringCaseSpec` | ai-ticket-assistant/controllers/ticket.js:57-58 | A case-insensitive match holds iff the search text occurs at some position of the field, comparing characters case-insensitively. |
| `Text.Split` | ai-ticket-assistant/middlewares/auth.js:11 | `split(" ")` gives at least one piece and no piece contains a space. Joining the pieces with spaces gives back the header. |
| `Auth.BearerToken` | ai-ticket-assistant/middlewares/auth.js:11 | The token is the longest space-free prefix of what follows "Bearer ": it runs to the end of the header or stops right before a space. |
| `Auth.BearerSplit` | ai-ticket-assistant/middlewares/auth.js:11 | Splitting a bearer header gives "Bearer" first and the bearer token second. |
| `Auth.Authenticate` | ai-ticket-assistant/middlewares/auth.js:3-24 | The error 401 "No token provided" is returned iff the header is missing, empty or not "Bearer "-prefixed. 401 "Token missing" is returned iff the token is empty, and 401 "Invalid token" iff the verifier rejects a non-empty token. The request continues iff the verifier accepts the token, with exactly the identity it decoded. |
| `Auth.PassedRequestCarriesVerifiedIdentity` | ai-ticket-assistant/middlewares/auth.js:17-20 | A request that gets through carries an identity the verifier produced for some non-empty, space-free token. |
| `Auth.EmptyTokenIsMissing` | ai-ticket-assistant/middlewares/auth.js:11-15 | "Bearer " alone, or followed by another space, gives 401 "Token missing" whatever the verifier says. |
| `Auth.TrailingFieldsIgnored` | ai-ticket-assistant/middlewares/auth.js:11 | Anything after a space following the token does not change the outcome. |

## Left out

- The seven-day window has no upper bound. `recentTickets` and `ticketsPerDay` filter only `createdAt >= sevenDaysAgo` (analytics.js:40 and 45), so tickets stamped after now count as recent, in `Analytics.Recent` and `Analytics.TicketsPerDay` as in the code.
- `sevenDaysAgo` is computed with `setDate(getDate() - 7)` in local time. It is modelled as exactly `now - 7 * 86400000` ms, so a daylight-saving shift of one hour is not modelled.
- The day key is `%Y-%m-%d` of the UTC date. It is modelled as whole days since the epoch (`createdAt / 86400000`, floor division), which orders and groups timestamps the same way.
- Case-insensitive search is modelled as ASCII case folding and plain substring search:
  - The search text is really a regular expression, so metacharacters are not modelled.
  - Unicode case folding is not modelled.
- `sortBy` is modelled as one of the five ticket fields. Any other value is not modelled: ticket.js:74 passes it unchecked, so a stored field such as `_id` or `createdBy` sorts on that field, and an unknown name sorts every ticket on a missing value.
- String order is by character code. Tie order among equal sort keys, and the order of `$group` output, are left unspecified in the contracts.
- JWT signature and expiry checking, and the secret, are not modelled. The verifier is a parameter from token to `Option<Identity>`.
- Inngest event delivery is not modelled; a boolean parameter says whether `send` succeeded.
- The 500 responses of the `catch` blocks for database failures and malformed ObjectIds are not modelled. The only failure modelled is the transport failure after a ticket is created.
- The `message` strings of the 201 bodies ("Ticket created successfully", "Comment added successfully") are not part of the modelled response value.
- Mongoose's storing of status, priority, role and skills as free strings is not modelled:
  - The model uses the schema's enumerations, with null represented as `None`.
  - An empty-string status, which the code would also label "unknown", cannot occur.
- `Tickets.GetTickets`: the per-element contract states the id, title and projection kind, and the priority or populated assignee. It does not restate the other projected fields, which the projection functions copy from the ticket.
- `Analytics.GetDashboardAnalytics`, `Analytics.GetUserStats` and `Comments.DeleteComment` are each modelled as one atomic step over a single snapshot of the store. The code issues separate awaited queries with no transaction: eight for the dashboard (analytics.js:14-56), two for the user stats (analytics.js:95 and 97), and a find followed by a delete (comment.js:79 and 89). Under concurrent writes, the real totals and breakdowns can disagree, and a comment deleted by another request in between still gets 200. The equalities between the totals and their breakdowns hold for the single snapshot only.
- `Analytics.GetUserStats`: ids are one abstract type, so the caller id from the token and a ticket's stored `createdBy` compare directly. In the code, `req.user._id` is the string decoded from the token (auth.js:18-19). `countDocuments` (analytics.js:95) casts a query value to the field's type, but the `$match` stage of `aggregate` (analytics.js:97-100) is not cast. If `createdBy` is stored as an ObjectId, the real `ticketsByStatus` would be empty while `totalTickets` is the true count. The ticket schema is not part of this model, so this is not asserted either way, and the contract's "the breakdown sums to `totalTickets`" holds only under the single id type.
- Routes, the frontend, user signup and login, and the AI triage worker are not modelled; only the handlers themselves are.

=== FILE: analytics.dfy ===
/** The analytics controller: the staff dashboard (totals, breakdowns by
    status, priority and role, the trailing seven-day window, top skills)
    and the personal stats of any caller. */
module Analytics {
  import opened Common
  import opened Sequences
  import opened Grouping
  import opened Domain

  /** Timestamps are milliseconds since the epoch. */
  const DAY: int := 86_400_000
  const WEEK: int := 7 * DAY
  const TOP_SKILLS: nat := 5
  const UNKNOWN := "unknown"

  // --------------------------------------------------------------- labels

  /** The property name of a status group: `item._id || "unknown"`. */
  function StatusLabel(s: Option<Status>): string {
    if s.Some? then StatusName(s.value) else UNKNOWN
  }

  function PriorityLabel(p: Option<Priority>): string {
    if p.Some? then PriorityName(p.value) else UNKNOWN
  }

  /** No two group keys share a property name, so no count is overwritten. */
  lemma LabelsInjective()
    ensures Injective(StatusLabel)
    ensures Injective(PriorityLabel)
    ensures Injective(RoleName)
  {
    assert StatusName(Todo)[0] == 'T' && StatusName(InProgress)[0] == 'I' && StatusName(Done)[0] == 'D';
    assert PriorityName(Low)[0] == 'l' && PriorityName(Medium)[0] == 'm' && PriorityName(High)[0] == 'h';
    assert UNKNOWN[0] == 'u';
    assert RoleName(User)[0] == 'u' && RoleName(Moderator)[0] == 'm' && RoleName(Admin)[0] == 'a';
  }

  /** With an injective labelling, the object a reduce builds from group
      output holds, under each label, the count of its key, and has exactly
      the labels of the grouped keys as properties. */
  lemma {:induction false} ObjectOfGroup<K(!new)>(keys: seq<K>, tag: K -> string)
    requires Injective(tag)
    ensures var obj := ToObject(Group(keys), tag);
            && Sum(obj) == |keys|
            && (forall k :: Lookup(obj, tag(k)) == multiset(keys)[k])
            && (forall e :: e in obj ==> e.count > 0)
            && (forall e :: e in obj ==> exists k :: k in keys && e.key == tag(k))
  {
    var g := Group(keys);
    var obj := ToObject(g, tag);
    forall k ensures Lookup(obj, tag(k)) == multiset(keys)[k] {
      LookupRelabel(g, tag, k);
    }
    forall e | e in obj ensures e.count > 0 && exists k :: k in keys && e.key == tag(k) {
      var i :| 0 <= i < |obj| && obj[i] == e;
      assert g[i] in g;
      assert g[i].key in Keys(g);
    }
  }

  lemma {:induction false} LookupRelabel<K(!new)>(es: seq<Entry<K>>, tag: K -> string, k: K)
    requires Injective(tag)
    ensures Lookup(Relabel(es, tag), tag(k)) == Lookup(es, k)
  {
    if es != [] {
      assert Relabel(es, tag)[1..] == Relabel(es[1..], tag);
      LookupRelabel(es[1..], tag, k);
    }
  }

  // ----------------------------------------------------------- breakdowns

  function StatusOf(t: Ticket): Option<Status> { t.status }

  function PriorityOf(t: Ticket): Option<Priority> { t.priority }

  function RoleOf(a: Account): Role { a.role }

  /** The status of every ticket, one per ticket. */
  function Statuses(ts: seq<Ticket>): seq<Option<Status>> {
    Map(ts, StatusOf)
  }

  function Priorities(ts: seq<Ticket>): seq<Option<Priority>> {
    Map(ts, PriorityOf)
  }

  function Roles(users: seq<Account>): seq<Role> {
    Map(users, RoleOf)
  }

  /** `ticketsByStatus`: every ticket is counted under exactly one label,
      a null status under "unknown". */
  function StatusBreakdown(ts: seq<Ticket>): (obj: seq<Entry<string>>)
    ensures Sum(obj) == |ts|
    ensures forall s :: Lookup(obj, StatusLabel(s)) == multiset(Statuses(ts))[s]
    ensures forall e :: e in obj ==> e.count > 0
  {
    LabelsInjective();
    ObjectOfGroup(Statuses(ts), StatusLabel);
    ToObject(Group(Statuses(ts)), StatusLabel)
  }

  predicate HasPriority(t: Ticket) {
    t.priority.Some?
  }

  /** `ticketsByPriority`: only tickets with a priority are grouped, so no
      "unknown" property appears and the counts add up to at most the
      total. */
  function PriorityBreakdown(ts: seq<Ticket>): (obj: seq<Entry<string>>)
    ensures Sum(obj) == |Filter(ts, HasPriority)| <= |ts|
    ensures forall p: Priority :: Lookup(obj, PriorityName(p)) == multiset(Priorities(ts))[Some(p)]
    ensures forall e :: e in obj ==> e.count > 0 && e.key != UNKNOWN
  {
    var prioritized := Filter(ts, HasPriority);
    LabelsInjective();
    ObjectOfGroup(Priorities(prioritized), PriorityLabel);
    PriorityCounts(ts);
    PriorityKeysKnown(prioritized);
    ToObject(Group(Priorities(prioritized)), PriorityLabel)
  }

  lemma PriorityCounts(ts: seq<Ticket>)
    ensures forall p: Priority ::
              multiset(Priorities(Filter(ts, HasPriority)))[Some(p)] == multiset(Priorities(ts))[Some(p)]
  {
    forall p: Priority
      ensures multiset(Priorities(Filter(ts, HasPriority)))[Some(p)] == multiset(Priorities(ts))[Some(p)]
    {
      MapFilterCount(ts, HasPriority, PriorityOf, Some(p));
    }
  }

  /** Grouping only prioritized tickets never yields the "unknown" label. */
  lemma PriorityKeysKnown(prioritized: seq<Ticket>)
    requires forall t :: t in prioritized ==> HasPriority(t)
    ensures forall e :: e in ToObject(Group(Priorities(prioritized)), PriorityLabel) ==> e.key != UNKNOWN
  {
    var keys := Priorities(prioritized);
    forall k | k in keys ensures PriorityLabel(k) != UNKNOWN {
      var i :| 0 <= i < |keys| && keys[i] == k;
      assert prioritized[i] in prioritized;
      assert PriorityName(k.value)[0] != 'u';
    }
    LabelsInjective();
    ObjectOfGroup(keys, PriorityLabel);
  }

  predicate IsAssigned(t: Ticket) {
    t.assignedTo.Some?
  }

  predicate IsUnassigned(t: Ticket) {
    t.assignedTo.None?
  }

  /** `unassignedTickets`: the unassigned and the assigned tickets make up
      the whole collection. */
  function UnassignedCount(ts: seq<Ticket>): (n: nat)
    ensures n + |Filter(ts, IsAssigned)| == |ts|
    ensures n == 0 <==> forall t :: t in ts ==> t.assignedTo.Some?
  {
    FilterPartition(ts, IsUnassigned, IsAssigned);
    |Filter(ts, IsUnassigned)|
  }

  /** `usersByRole`: one property per role present, counts adding up to
      the number of users. */
  function RoleBreakdown(users: seq<Account>): (obj: seq<Entry<string>>)
    ensures Sum(obj) == |users|
    ensures forall r :: Lookup(obj, RoleName(r)) == multiset(Roles(users))[r]
    ensures forall e :: e in obj ==> e.count > 0
  {
    LabelsInjective();
    ObjectOfGroup(Roles(users), RoleName);
    ToObject(Group(Roles(users)), RoleName)
  }

  // ---------------------------------------------------------- time window

  /** Created no earlier than seven days before `now` (no upper bound). */
  predicate IsRecent(now: int, t: Ticket) {
    t.createdAt >= now - WEEK
  }

  function Recent(ts: seq<Ticket>, now: int): (r: seq<Ticket>)
    ensures forall t :: t in r <==> t in ts && IsRecent(now, t)
    ensures forall t :: multiset(r)[t] == if IsRecent(now, t) then multiset(ts)[t] else 0
    ensures |r| <= |ts|
  {
    Filter(ts, (t: Ticket) => IsRecent(now, t))
  }

  /** The calendar-day key of a timestamp: whole days since the epoch. */
  function DayOf(time: int): int {
    time / DAY
  }

  lemma DayOfMonotone(a: int, b: int)
    requires a <= b
    ensures DayOf(a) <= DayOf(b)
  {
    var qa, qb := a / DAY, b / DAY;
    assert a == DAY * qa + a % DAY;
    assert b == DAY * qb + b % DAY;
    assert DAY * qa < DAY * (qb + 1);
  }

  function DayKey(t: Ticket): int { DayOf(t.createdAt) }

  function Days(ts: seq<Ticket>): seq<int> {
    Map(ts, DayKey)
  }

  predicate DayLe(a: Entry<int>, b: Entry<int>) {
    a.key <= b.key
  }

  /** `ticketsPerDay`: the recent tickets bucketed by day, one entry per day
      that has a ticket, strictly ascending by day, counts adding up to
      `recentTickets`. */
  function TicketsPerDay(ts: seq<Ticket>, now: int): (r: seq<Entry<int>>)
    ensures forall i, j :: 0 <= i < j < |r| ==> r[i].key < r[j].key
    ensures forall e :: e in r ==> e.count > 0 && e.count == multiset(Days(Recent(ts, now)))[e.key]
    ensures Keys(r) == set d | d in Days(Recent(ts, now))
    ensures forall e :: e in r ==> e.key >= DayOf(now - WEEK)
    ensures Sum(r) == |Recent(ts, now)|
  {
    var days := Days(Recent(ts, now));
    var g := Group(days);
    GroupCounts(days);
    assert TotalPreorder(DayLe);
    var r := Sort(g, DayLe);
    SumPermutation(g, r);
    KeysPermutation(g, r);
    DistinctKeysPermutation(g, r);
    forall e | e in r ensures e.key >= DayOf(now - WEEK) {
      assert e.key in Keys(g);
      var i :| 0 <= i < |days| && days[i] == e.key;
      assert Recent(ts, now)[i] in Recent(ts, now);
      DayOfMonotone(now - WEEK, Recent(ts, now)[i].createdAt);
    }
    r
  }

  // --------------------------------------------------------------- skills

  /** `$unwind: "$relatedSkills"`: every skill of every ticket, duplicates
      within one ticket included. */
  function Skills(ts: seq<Ticket>): (r: seq<string>)
    ensures forall k :: k in r <==> exists t :: t in ts && k in t.relatedSkills
  {
    if ts == [] then []
    else
      var r := ts[0].relatedSkills + Skills(ts[1..]);
      assert forall t :: t in ts <==> t == ts[0] || t in ts[1..];
      r
  }

  /** The skill multiset is the sum of the tickets' own skill multisets. */
  lemma {:induction false} SkillsAppend(a: seq<Ticket>, b: seq<Ticket>)
    ensures multiset(Skills(a + b)) == multiset(Skills(a)) + multiset(Skills(b))
  {
    if a != [] {
      assert (a + b)[1..] == a[1..] + b;
      SkillsAppend(a[1..], b);
    } else {
      assert a + b == b;
    }
  }

  /** A single ticket contributes its own skill list, duplicates included. */
  lemma SkillsOne(t: Ticket)
    ensures Skills([t]) == t.relatedSkills
  {
    assert [t][1..] == [];
  }

  /** A skill listed twice by one ticket is counted twice. */
  lemma DuplicateSkillCountsTwice(t: Ticket, k: string)
    requires t.relatedSkills == [k, k]
    ensures multiset(Skills([t]))[k] == 2
  {
    SkillsOne(t);
  }

  predicate ByCountDescending(a: Entry<string>, b: Entry<string>) {
    a.count >= b.count
  }

  /** Every skill with its number of occurrences, most frequent first. */
  function RankedSkills(ts: seq<Ticket>): (r: seq<Entry<string>>)
    ensures forall i, j :: 0 <= i < j < |r| ==> r[i].count >= r[j].count
    ensures DistinctKeys(r)
    ensures forall e :: e in r ==> e.count > 0 && e.count == multiset(Skills(ts))[e.key]
    ensures Keys(r) == set k | k in Skills(ts)
  {
    var skills := Skills(ts);
    var g := Group(skills);
    GroupCounts(skills);
    assert TotalPreorder(ByCountDescending);
    var sorted := Sort(g, ByCountDescending);
    KeysPermutation(g, sorted);
    DistinctKeysPermutation(g, sorted);
    sorted
  }

  /** `topSkills`: at most five skills, most frequent first, each counted
      once per occurrence; no skill left out occurs more often than the
      last one listed. Ties are ordered arbitrarily. */
  function TopSkills(ts: seq<Ticket>): (r: seq<Entry<string>>)
    ensures |r| <= TOP_SKILLS
    ensures forall i, j :: 0 <= i < j < |r| ==> r[i].count >= r[j].count
    ensures DistinctKeys(r)
    ensures forall e :: e in r ==> e.count > 0 && e.count == multiset(Skills(ts))[e.key]
    ensures forall k :: k in Skills(ts) && k !in Keys(r) ==>
              |r| == TOP_SKILLS && multiset(Skills(ts))[k] <= r[TOP_SKILLS - 1].count
  {
    var ranked := RankedSkills(ts);
    var n := if |ranked| < TOP_SKILLS then |ranked| else TOP_SKILLS;
    TopOmitted(ranked, n, Skills(ts));
    ranked[..n]
  }

  /** In a list ranked by count, a key missing from the first `n` entries
      is ranked after all of them. */
  lemma TopOmitted(ranked: seq<Entry<string>>, n: nat, skills: seq<string>)
    requires n == if |ranked| < TOP_SKILLS then |ranked| else TOP_SKILLS
    requires forall i, j :: 0 <= i < j < |ranked| ==> ranked[i].count >= ranked[j].count
    requires forall e :: e in ranked ==> e.count == multiset(skills)[e.key]
    requires Keys(ranked) == set k | k in skills
    ensures forall k :: k in skills && k !in Keys(ranked[..n]) ==>
              n == TOP_SKILLS && multiset(skills)[k] <= ranked[TOP_SKILLS - 1].count
  {
    var r := ranked[..n];
    forall q | 0 <= q < n ensures ranked[q].key in Keys(r) {
      assert r[q] == ranked[q];
    }
    forall k | k in skills && k !in Keys(r)
      ensures n == TOP_SKILLS && multiset(skills)[k] <= ranked[TOP_SKILLS - 1].count
    {
      assert k in Keys(ranked);
      var e :| e in ranked && e.key == k;
      var p :| 0 <= p < |ranked| && ranked[p] == e;
      assert p >= n;
      assert ranked[TOP_SKILLS - 1].count >= ranked[p].count;
    }
  }

  // ------------------------------------------------------------ handlers

  datatype Dashboard = Dashboard(
    totalTickets: nat,
    ticketsByStatus: seq<Entry<string>>,
    ticketsByPriority: seq<Entry<string>>,
    unassignedTickets: nat,
    usersByRole: seq<Entry<string>>,
    recentTickets: nat,
    ticketsPerDay: seq<Entry<int>>,
    topSkills: seq<Entry<string>>)

  /** GET /analytics/dashboard: 403 for role `user`; staff get every
      aggregate, each consistent with the total it breaks down. */
  function GetDashboardAnalytics(s: Store, caller: Identity, now: int): (r: Outcome<Dashboard>)
    ensures caller.role == User <==> r == Failure(FORBIDDEN, MSG_ACCESS_DENIED)
    ensures caller.role != User ==> r.Success?
    ensures r.Success? ==>
              && r.code == OK
              && var d := r.value;
                 && d.totalTickets == |s.tickets|
                 && Sum(d.ticketsByStatus) == d.totalTickets
                 && Sum(d.ticketsByPriority) <= d.totalTickets
                 && (forall st :: Lookup(d.ticketsByStatus, StatusLabel(st)) == multiset(Statuses(s.tickets))[st])
                 && (forall p: Priority :: Lookup(d.ticketsByPriority, PriorityName(p)) == multiset(Priorities(s.tickets))[Some(p)])
                 && Sum(d.ticketsByPriority) == |Filter(s.tickets, HasPriority)|
                 && (forall e :: e in d.ticketsByPriority ==> e.key != UNKNOWN)
                 && d.unassignedTickets + |Filter(s.tickets, IsAssigned)| == d.totalTickets
                 && Sum(d.usersByRole) == |s.users|
                 && (forall role :: Lookup(d.usersByRole, RoleName(role)) == multiset(Roles(s.users))[role])
                 && d.recentTickets == |Recent(s.tickets, now)| <= d.totalTickets
                 && Sum(d.ticketsPerDay) == d.recentTickets
                 && d.ticketsPerDay == TicketsPerDay(s.tickets, now)
                 && d.topSkills == TopSkills(s.tickets)
                 && (forall e :: e in d.ticketsByStatus ==> e.count > 0)
                 && (forall e :: e in d.ticketsByPriority ==> e.count > 0)
                 && (forall e :: e in d.usersByRole ==> e.count > 0)
                 && d.ticketsByStatus == StatusBreakdown(s.tickets)
                 && d.ticketsByPriority == PriorityBreakdown(s.tickets)
                 && d.usersByRole == RoleBreakdown(s.users)
  {
    if caller.role == User then Failure(FORBIDDEN, MSG_ACCESS_DENIED)
    else
      Success(OK, Dashboard(
        |s.tickets|,
        StatusBreakdown(s.tickets),
        PriorityBreakdown(s.tickets),
        UnassignedCount(s.tickets),
        RoleBreakdown(s.users),
        |Recent(s.tickets, now)|,
        TicketsPerDay(s.tickets, now),
        TopSkills(s.tickets)))
  }

  /** The tickets the caller created. */
  function Own(ts: seq<Ticket>, owner: Id): (r: seq<Ticket>)
    ensures forall t :: t in r <==> t in ts && t.createdBy == owner
    ensures forall t :: multiset(r)[t] == if t.createdBy == owner then multiset(ts)[t] else 0
  {
    Filter(ts, (t: Ticket) => t.createdBy == owner)
  }

  datatype Stats = Stats(totalTickets: nat, ticketsByStatus: seq<Entry<string>>)

  /** GET /analytics/user: for any caller, the count and status breakdown of
      the tickets it created, and of no other ticket. */
  function GetUserStats(s: Store, caller: Identity): (r: Outcome<Stats>)
    ensures r.Success? && r.code == OK
    ensures r.value.totalTickets == |Own(s.tickets, caller.id)|
    ensures Sum(r.value.ticketsByStatus) == r.value.totalTickets
    ensures forall st :: Lookup(r.value.ticketsByStatus, StatusLabel(st)) == multiset(Statuses(Own(s.tickets, caller.id)))[st]
    ensures forall e :: e in r.value.ticketsByStatus ==> e.count > 0
    ensures r.value.ticketsByStatus == StatusBreakdown(Own(s.tickets, caller.id))
  {
    var own := Own(s.tickets, caller.id);
    Success(OK, Stats(|own|, StatusBreakdown(own)))
  }

  /** A user's stats and the staff dashboard agree: on a store where one
      user created every ticket, its total is the dashboard total. */
  lemma SoleOwnerStatsMatchDashboard(s: Store, caller: Identity, staff: Identity, now: int)
    requires staff.role != User
    requires forall t :: t in s.tickets ==> t.createdBy == caller.id
    ensures GetUserStats(s, caller).value.totalTickets == GetDashboardAnalytics(s, staff, now).value.totalTickets
  {
    var own := Own(s.tickets, caller.id);
    assert multiset(own) == multiset(s.tickets) by {
      forall t ensures multiset(own)[t] == multiset(s.tickets)[t] {
        if t.createdBy != caller.id {
          assert t !in s.tickets;
        }
      }
    }
    assert |multiset(own)| == |multiset(s.tickets)|;
  }
}

=== FILE: auth.dfy ===
/** The authentication middleware: reads the bearer token from the
    Authorization header, has it verified, and either attaches the decoded
    caller to the request or answers 401. Token verification (signature,
    expiry, secret) is a parameter: it maps a token to the identity it
    carries, or to nothing when it is rejected. */
module Auth {
  import opened Common
  import opened Text
  import opened Domain

  const BEARER := "Bearer "
  const MSG_NO_TOKEN := "Access Denied. No token provided."
  const MSG_TOKEN_MISSING := "Access Denied. Token missing."
  const MSG_INVALID_TOKEN := "Invalid token"

  /** Either the request is answered here, or it continues with a caller. */
  datatype AuthResult = Denied(code: nat, error: string) | Next(user: Identity)

  /** The header carries the bearer scheme (a missing or empty header does not). */
  predicate HasBearer(header: Option<string>) {
    Present(header) && StartsWith(header.value, BEARER)
  }

  /** The token a bearer header carries: the characters after "Bearer " up
      to the next space or the end of the header. */
  function BearerToken(h: string): (tok: string)
    requires StartsWith(h, BEARER)
    ensures ' ' !in tok
    ensures StartsWith(h[|BEARER|..], tok)
    ensures |tok| == |h| - |BEARER| || h[|BEARER| + |tok|] == ' '
  {
    Before(h[|BEARER|..], ' ')
  }

  /** Splitting a bearer header at spaces yields the scheme name first and
      the bearer token second. */
  lemma BearerSplit(h: string)
    requires StartsWith(h, BEARER)
    ensures |Split(h, ' ')| >= 2
    ensures Split(h, ' ')[0] == "Bearer"
    ensures Split(h, ' ')[1] == BearerToken(h)
  {
    var rest := h[|BEARER|..];
    assert h == "Bearer" + [' '] + rest;
    assert ' ' !in "Bearer";
    SplitAfter("Bearer", ' ', rest);
    SplitFirst(rest, ' ');
  }

  /** `authenticate`: the second space-separated field of the header is the
      token; an absent scheme, an empty token and a rejected token each get
      their own 401. */
  function Authenticate(header: Option<string>, verify: string -> Option<Identity>): (r: AuthResult)
    ensures !HasBearer(header) <==> r == Denied(UNAUTHORIZED, MSG_NO_TOKEN)
    ensures HasBearer(header) ==>
              var tok := BearerToken(header.value);
              && (tok == "" <==> r == Denied(UNAUTHORIZED, MSG_TOKEN_MISSING))
              && (tok != "" && verify(tok).None? <==> r == Denied(UNAUTHORIZED, MSG_INVALID_TOKEN))
              && (r.Next? <==> tok != "" && verify(tok).Some?)
              && (r.Next? ==> r.user == verify(tok).value)
    ensures r.Denied? ==> r.code == UNAUTHORIZED
  {
    if !Present(header) || !StartsWith(header.value, BEARER) then
      Denied(UNAUTHORIZED, MSG_NO_TOKEN)
    else
      var parts := Split(header.value, ' ');
      var token := if |parts| > 1 then parts[1] else "";
      BearerSplit(header.value);
      if token == "" then
        Denied(UNAUTHORIZED, MSG_TOKEN_MISSING)
      else
        match verify(token)
        case None => Denied(UNAUTHORIZED, MSG_INVALID_TOKEN)
        case Some(user) => Next(user)
  }

  /** Only a token the verifier accepts lets a request through, and the
      caller attached is exactly the identity that token carries. */
  lemma PassedRequestCarriesVerifiedIdentity(
    header: Option<string>, verify: string -> Option<Identity>)
    requires Authenticate(header, verify).Next?
    ensures exists tok :: tok != "" && ' ' !in tok && verify(tok) == Some(Authenticate(header, verify).user)
  {
    var tok := BearerToken(header.value);
    assert verify(tok) == Some(Authenticate(header, verify).user);
  }

  /** A header carrying nothing but the scheme, or a second space right
      after it, has an empty token. */
  lemma EmptyTokenIsMissing(rest: string, verify: string -> Option<Identity>)
    requires rest == "" || rest[0] == ' '
    ensures Authenticate(Some(BEARER + rest), verify) == Denied(UNAUTHORIZED, MSG_TOKEN_MISSING)
  {
    var h := BEARER + rest;
    assert StartsWith(h, BEARER);
    assert h[|BEARER|..] == rest;
    assert BearerToken(h) == "";
  }

  /** Whatever follows the first space after the token is ignored. */
  lemma TrailingFieldsIgnored(tok: string, tail: string, verify: string -> Option<Identity>)
    requires tok != "" && ' ' !in tok
    ensures Authenticate(Some(BEARER + tok + " " + tail), verify) == Authenticate(Some(BEARER + tok), verify)
  {
    var h1 := BEARER + tok + " " + tail;
    var h2 := BEARER + tok;
    assert StartsWith(h1, BEARER) && StartsWith(h2, BEARER);
    assert h1[|BEARER|..] == tok + [' '] + tail;
    assert h2[|BEARER|..] == tok;
    SplitAfter(tok, ' ', tail);
    SplitFirst(tok + [' '] + tail, ' ');
    assert BearerToken(h1) == tok;
    assert BearerToken(h2) == tok;
  }
}

=== FILE: comments.dfy ===
/** The comment controller: adding and listing comments under the parent
    ticket's owner-or-staff rule, and deletion by author or admin. */
module Comments {
  import opened Common
  import opened Sequences
  import opened Domain

  const MSG_CONTENT_REQUIRED := "Comment content is required"
  const MSG_COMMENT_NOT_FOUND := "Comment not found"
  const MSG_COMMENT_DELETED := "Comment deleted successfully"

  /** A comment with its author populated to `{ _id, email }`. */
  datatype CommentView = CommentView(id: Id, ticketId: Id, author: Option<UserRef>, content: string, createdAt: int)

  function ViewOf(users: seq<Account>, c: Comment): CommentView {
    CommentView(c.id, c.ticketId, Populate(users, Some(c.author)), c.content, c.createdAt)
  }

  /** The status and message of a refused request. */
  datatype Refusal = Refusal(code: nat, message: string)

  /** The parent-ticket check both add and list perform: 404 when the
      ticket is missing, 403 when a `user` does not own it. */
  function TicketGate(s: Store, caller: Identity, ticketId: Id): (r: Option<Refusal>)
    ensures r.None? <==> FindTicket(s.tickets, ticketId).Some? && CanAccessTicket(caller, FindTicket(s.tickets, ticketId).value)
    ensures FindTicket(s.tickets, ticketId).None? ==> r == Some(Refusal(NOT_FOUND, MSG_TICKET_NOT_FOUND))
    ensures FindTicket(s.tickets, ticketId).Some? && !CanAccessTicket(caller, FindTicket(s.tickets, ticketId).value) ==>
              r == Some(Refusal(FORBIDDEN, MSG_ACCESS_DENIED))
  {
    match FindTicket(s.tickets, ticketId)
    case None => Some(Refusal(NOT_FOUND, MSG_TICKET_NOT_FOUND))
    case Some(t) => if CanAccessTicket(caller, t) then None else Some(Refusal(FORBIDDEN, MSG_ACCESS_DENIED))
  }

  /** POST /comments/:ticketId. The checks run in the order 400, 404, 403;
      only when all pass is one comment appended. */
  function AddComment(s: Store, caller: Identity, ticketId: Id, content: Option<string>, now: int): (h: Handled<CommentView>)
    ensures !Present(content) ==> h == Handled(Failure(BAD_REQUEST, MSG_CONTENT_REQUIRED), s)
    ensures Present(content) && FindTicket(s.tickets, ticketId).None? ==>
              h == Handled(Failure(NOT_FOUND, MSG_TICKET_NOT_FOUND), s)
    ensures Present(content) && FindTicket(s.tickets, ticketId).Some?
              && !CanAccessTicket(caller, FindTicket(s.tickets, ticketId).value) ==>
              h == Handled(Failure(FORBIDDEN, MSG_ACCESS_DENIED), s)
    ensures h.response.Success? <==>
              Present(content) && FindTicket(s.tickets, ticketId).Some?
              && CanAccessTicket(caller, FindTicket(s.tickets, ticketId).value)
    ensures h.response.Success? ==>
              && h.response.code == CREATED
              && h.store.tickets == s.tickets && h.store.users == s.users && h.store.events == s.events
              && |h.store.comments| == |s.comments| + 1
              && h.store.comments[..|s.comments|] == s.comments
              && var c := h.store.comments[|s.comments|];
                 && c.author == caller.id
                 && c.ticketId == ticketId
                 && c.content == content.value
                 && c.createdAt == now
                 && (forall d :: d in s.comments ==> d.id != c.id)
                 && h.response.value == ViewOf(s.users, c)
  {
    if !Present(content) then Handled(Failure(BAD_REQUEST, MSG_CONTENT_REQUIRED), s)
    else
      match TicketGate(s, caller, ticketId)
      case Some(no) => Handled(Failure(no.code, no.message), s)
      case None =>
        var c := Comment(NextCommentId(s.comments), ticketId, caller.id, content.value, now);
        Handled(Success(CREATED, ViewOf(s.users, c)), s.(comments := s.comments + [c]))
  }

  predicate CommentLe(a: Comment, b: Comment) {
    a.createdAt <= b.createdAt
  }

  /** `Comment.find({ ticketId }).sort({ createdAt: 1 })`: exactly the
      comments of the ticket, each as often as stored, oldest first. */
  function CommentsOf(cs: seq<Comment>, ticketId: Id): (r: seq<Comment>)
    ensures forall c :: c in r <==> c in cs && c.ticketId == ticketId
    ensures forall c :: multiset(r)[c] == if c.ticketId == ticketId then multiset(cs)[c] else 0
    ensures forall i, j :: 0 <= i < j < |r| ==> r[i].createdAt <= r[j].createdAt
  {
    var own := Filter(cs, (c: Comment) => c.ticketId == ticketId);
    assert TotalPreorder(CommentLe);
    var r := Sort(own, CommentLe);
    r
  }

  /** Every comment with its author populated, in order. */
  function Views(users: seq<Account>, cs: seq<Comment>): (r: seq<CommentView>)
    ensures |r| == |cs|
    ensures forall i :: 0 <= i < |cs| ==> r[i] == ViewOf(users, cs[i])
  {
    Map(cs, c => ViewOf(users, c))
  }

  /** GET /comments/:ticketId. */
  function GetComments(s: Store, caller: Identity, ticketId: Id): (r: Outcome<seq<CommentView>>)
    ensures FindTicket(s.tickets, ticketId).None? ==> r == Failure(NOT_FOUND, MSG_TICKET_NOT_FOUND)
    ensures FindTicket(s.tickets, ticketId).Some? && !CanAccessTicket(caller, FindTicket(s.tickets, ticketId).value) ==>
              r == Failure(FORBIDDEN, MSG_ACCESS_DENIED)
    ensures r.Success? <==> FindTicket(s.tickets, ticketId).Some? && CanAccessTicket(caller, FindTicket(s.tickets, ticketId).value)
    ensures r.Success? ==>
              && r.code == OK
              && var listed := CommentsOf(s.comments, ticketId);
                 |r.value| == |listed| && forall i :: 0 <= i < |listed| ==> r.value[i] == ViewOf(s.users, listed[i])
  {
    match TicketGate(s, caller, ticketId)
    case Some(no) => Failure(no.code, no.message)
    case None => Success(OK, Views(s.users, CommentsOf(s.comments, ticketId)))
  }

  /** A `user` who does not own an existing ticket is told 403, not 404:
      unlike the ticket fetch, the comment routes reveal the ticket exists. */
  lemma CommentsRevealForeignTicket(s: Store, caller: Identity, t: Ticket, content: string, now: int)
    requires UniqueTicketIds(s.tickets)
    requires caller.role == User && t in s.tickets && t.createdBy != caller.id
    ensures GetComments(s, caller, t.id) == Failure(FORBIDDEN, MSG_ACCESS_DENIED)
    ensures content != "" ==> AddComment(s, caller, t.id, Some(content), now) == Handled(Failure(FORBIDDEN, MSG_ACCESS_DENIED), s)
  {
    var i :| 0 <= i < |s.tickets| && s.tickets[i] == t;
    FindTicketUnique(s.tickets, i);
  }

  /** Staff pass the ticket gate of every existing ticket. */
  lemma StaffPassTicketGate(s: Store, caller: Identity, ticketId: Id)
    requires caller.role != User
    requires exists t :: t in s.tickets && t.id == ticketId
    ensures GetComments(s, caller, ticketId).Success?
    ensures forall content: string, now: int :: content != "" ==>
              AddComment(s, caller, ticketId, Some(content), now).response.Success?
  {
  }

  /** DELETE /comments/:commentId: 404 for a missing comment, 403 unless the
      caller is its author or an admin, otherwise that one comment goes. */
  function DeleteComment(s: Store, caller: Identity, commentId: Id): (h: Handled<string>)
    ensures FindComment(s.comments, commentId).None? ==>
              h == Handled(Failure(NOT_FOUND, MSG_COMMENT_NOT_FOUND), s)
    ensures FindComment(s.comments, commentId).Some?
              && !CanDeleteComment(caller, s.comments[FindComment(s.comments, commentId).value]) ==>
              h == Handled(Failure(FORBIDDEN, MSG_ACCESS_DENIED), s)
    ensures h.response.Success? <==>
              && FindComment(s.comments, commentId).Some?
              && CanDeleteComment(caller, s.comments[FindComment(s.comments, commentId).value])
    ensures h.response.Success? ==>
              && h.response == Success(OK, MSG_COMMENT_DELETED)
              && h.store.tickets == s.tickets && h.store.users == s.users && h.store.events == s.events
              && var i := FindComment(s.comments, commentId).value;
                 && |h.store.comments| == |s.comments| - 1
                 && multiset(h.store.comments) == multiset(s.comments) - multiset{s.comments[i]}
                 && h.store.comments == s.comments[..i] + s.comments[i + 1..]
  {
    match FindComment(s.comments, commentId)
    case None => Handled(Failure(NOT_FOUND, MSG_COMMENT_NOT_FOUND), s)
    case Some(i) =>
      if !CanDeleteComment(caller, s.comments[i]) then Handled(Failure(FORBIDDEN, MSG_ACCESS_DENIED), s)
      else
        assert s.comments == s.comments[..i] + [s.comments[i]] + s.comments[i + 1..];
        Handled(Success(OK, MSG_COMMENT_DELETED), s.(comments := s.comments[..i] + s.comments[i + 1..]))
  }

  /** With unique comment ids, a successful delete removes the comment with
      that id and keeps every other comment. */
  lemma DeleteRemovesExactlyThatComment(s: Store, caller: Identity, commentId: Id)
    requires UniqueCommentIds(s.comments)
    requires DeleteComment(s, caller, commentId).response.Success?
    ensures forall c :: c in DeleteComment(s, caller, commentId).store.comments <==>
              c in s.comments && c.id != commentId
  {
    var i := FindComment(s.comments, commentId).value;
    var cs := s.comments;
    forall j | 0 <= j < |cs| && j != i ensures cs[j].id != commentId {
      if j < i { assert cs[j].id != cs[i].id; } else { assert cs[i].id != cs[j].id; }
    }
    RemoveAtMembers(cs, i);
  }

  /** Removing position `i` of a sequence whose other elements all carry a
      different id leaves exactly the elements with a different id. */
  lemma RemoveAtMembers(cs: seq<Comment>, i: nat)
    requires i < |cs|
    requires forall j :: 0 <= j < |cs| && j != i ==> cs[j].id != cs[i].id
    ensures forall c :: c in cs[..i] + cs[i + 1..] <==> c in cs && c.id != cs[i].id
  {
    var rest := cs[..i] + cs[i + 1..];
    forall c | c in rest ensures c in cs && c.id != cs[i].id {
      var k :| 0 <= k < |rest| && rest[k] == c;
      var k' := if k < i then k else k + 1;
      assert c == cs[k'] && k' != i;
    }
    forall c | c in cs && c.id != cs[i].id ensures c in rest {
      var k :| 0 <= k < |cs| && cs[k] == c;
      var k' := if k < i then k else k - 1;
      assert rest[k'] == c;
    }
  }

  /** A moderator may not delete another user's comment. */
  lemma ModeratorCannotDeleteOthers(s: Store, caller: Identity, commentId: Id)
    requires caller.role == Moderator
    requires FindComment(s.comments, commentId).Some?
    requires s.comments[FindComment(s.comments, commentId).value].author != caller.id
    ensures DeleteComment(s, caller, commentId) == Handled(Failure(FORBIDDEN, MSG_ACCESS_DENIED), s)
  {
  }

  /** A refused delete leaves every comment listing exactly as it was. */
  lemma RefusedDeleteKeepsComment(s: Store, caller: Identity, commentId: Id, reader: Identity, ticketId: Id)
    requires DeleteComment(s, caller, commentId).response.Failure?
    ensures GetComments(DeleteComment(s, caller, commentId).store, reader, ticketId) == GetComments(s, reader, ticketId)
  {
  }

  /** Adding a comment keeps comment ids unique. */
  lemma AddCommentPreservesValid(s: Store, caller: Identity, ticketId: Id, content: Option<string>, now: int)
    requires Valid(s)
    ensures Valid(AddComment(s, caller, ticketId, content, now).store)
  {
    var h := AddComment(s, caller, ticketId, content, now);
    if h.response.Success? {
      var added := h.store.comments;
      forall i, j | 0 <= i < j < |added| ensures added[i].id != added[j].id {
        assert added[i] == s.comments[i];
        if j == |s.comments| {
          assert added[i] in s.comments;
        } else {
          assert added[j] == s.comments[j];
        }
      }
    }
  }

  /** Deleting a comment keeps comment ids unique. */
  lemma DeleteCommentPreservesValid(s: Store, caller: Identity, commentId: Id)
    requires Valid(s)
    ensures Valid(DeleteComment(s, caller, commentId).store)
  {
    var h := DeleteComment(s, caller, commentId);
    if h.response.Success? {
      var k := FindComment(s.comments, commentId).value;
      RemoveAtKeepsUnique(s.comments, k);
    }
  }

  lemma RemoveAtKeepsUnique(cs: seq<Comment>, k: nat)
    requires k < |cs| && UniqueCommentIds(cs)
    ensures UniqueCommentIds(cs[..k] + cs[k + 1..])
  {
    var rest := cs[..k] + cs[k + 1..];
    forall i, j | 0 <= i < j < |rest| ensures rest[i].id != rest[j].id {
      var i' := if i < k then i else i + 1;
      var j' := if j < k then j else j + 1;
      assert rest[i] == cs[i'] && rest[j] == cs[j'];
    }
  }
}

=== FILE: common.dfy ===
/** Shared vocabulary of the ticket service: optional values, HTTP outcomes,
    status codes and the response messages the controllers send. */
module Common {

  datatype Option<+T> = None | Some(value: T)

  /** Document identifiers (Mongo ObjectIds), abstracted to naturals. */
  type Id = nat

  /** An HTTP response: a status code with either the JSON payload or the
      `message`/`error` string of an error body. */
  datatype Outcome<+T> = Success(code: nat, value: T) | Failure(code: nat, message: string)

  const OK: nat := 200
  const CREATED: nat := 201
  const BAD_REQUEST: nat := 400
  const UNAUTHORIZED: nat := 401
  const FORBIDDEN: nat := 403
  const NOT_FOUND: nat := 404
  const INTERNAL_ERROR: nat := 500

  const MSG_ACCESS_DENIED := "Access denied"
  const MSG_TICKET_NOT_FOUND := "Ticket not found"
  const MSG_INTERNAL := "Internal Server Error"

  /** JavaScript truthiness of an optional request string: a missing field
      (undefined or null) and the empty string are both falsy. */
  predicate Present(s: Option<string>) {
    s.Some? && s.value != ""
  }
}

=== FILE: domain.dfy ===
/** The records the controllers work on (users, tickets, comments, creation
    events), the in-memory store holding them, and the access rules shared
    by the ticket and comment handlers. */
module Domain {
  import opened Common

  datatype Role = User | Moderator | Admin

  datatype Status = Todo | InProgress | Done

  datatype Priority = Low | Medium | High

  function RoleName(r: Role): string {
    match r
    case User => "user"
    case Moderator => "moderator"
    case Admin => "admin"
  }

  function StatusName(s: Status): string {
    match s
    case Todo => "TODO"
    case InProgress => "IN_PROGRESS"
    case Done => "DONE"
  }

  function PriorityName(p: Priority): string {
    match p
    case Low => "low"
    case Medium => "medium"
    case High => "high"
  }

  /** The verified caller attached to a request (`req.user`). */
  datatype Identity = Identity(id: Id, role: Role)

  datatype Account = Account(id: Id, email: string, role: Role)

  /** `status` and `priority` are `None` when the stored field is null or
      missing; `assignedTo` is `None` for an unassigned ticket. */
  datatype Ticket = Ticket(
    id: Id,
    title: string,
    description: string,
    status: Option<Status>,
    priority: Option<Priority>,
    createdBy: Id,
    assignedTo: Option<Id>,
    relatedSkills: seq<string>,
    createdAt: int)

  datatype Comment = Comment(id: Id, ticketId: Id, author: Id, content: string, createdAt: int)

  /** A message handed to the event transport. */
  datatype Event = Event(name: string, ticketId: Id, title: string, description: string, createdBy: Id)

  const TICKET_CREATED := "ticket/created"

  /** The collections, plus the log of events the transport accepted. */
  datatype Store = Store(tickets: seq<Ticket>, comments: seq<Comment>, users: seq<Account>, events: seq<Event>)

  /** A handler's HTTP response together with the store it leaves behind. */
  datatype Handled<+T> = Handled(response: Outcome<T>, store: Store)

  /** A populated user reference: `populate(path, ["email", "_id"])`. */
  datatype UserRef = UserRef(id: Id, email: string)

  /** The owner-or-staff rule every ticket and comment read goes through. */
  predicate CanAccessTicket(caller: Identity, t: Ticket) {
    caller.role != User || t.createdBy == caller.id
  }

  /** Only the comment's author or an admin may delete it. */
  predicate CanDeleteComment(caller: Identity, c: Comment) {
    caller.role == Admin || c.author == caller.id
  }

  /** Resolves a user reference; a dangling reference populates to null. */
  function Populate(users: seq<Account>, id: Option<Id>): (r: Option<UserRef>)
    ensures r.Some? ==>
              && id == Some(r.value.id)
              && exists a :: a in users && a.id == r.value.id && a.email == r.value.email
    ensures r.None? <==> id.None? || forall a :: a in users ==> a.id != id.value
  {
    if id.None? then None
    else if users == [] then None
    else if users[0].id == id.value then Some(UserRef(users[0].id, users[0].email))
    else Populate(users[1..], id)
  }

  /** `findById`: the first ticket with this id. */
  function FindTicket(ts: seq<Ticket>, id: Id): (r: Option<Ticket>)
    ensures r.Some? ==> r.value in ts && r.value.id == id
    ensures r.None? <==> forall t :: t in ts ==> t.id != id
  {
    if ts == [] then None
    else if ts[0].id == id then Some(ts[0])
    else FindTicket(ts[1..], id)
  }

  /** `findOne({ createdBy: owner, _id: id })`. */
  function FindOwnedTicket(ts: seq<Ticket>, id: Id, owner: Id): (r: Option<Ticket>)
    ensures r.Some? ==> r.value in ts && r.value.id == id && r.value.createdBy == owner
    ensures r.None? <==> forall t :: t in ts ==> t.id != id || t.createdBy != owner
  {
    if ts == [] then None
    else if ts[0].id == id && ts[0].createdBy == owner then Some(ts[0])
    else FindOwnedTicket(ts[1..], id, owner)
  }

  /** Position of the first comment with this id. */
  function FindComment(cs: seq<Comment>, id: Id): (r: Option<nat>)
    ensures r.Some? ==>
              && r.value < |cs|
              && cs[r.value].id == id
              && forall j :: 0 <= j < r.value ==> cs[j].id != id
    ensures r.None? <==> forall c :: c in cs ==> c.id != id
  {
    if cs == [] then None
    else if cs[0].id == id then Some(0)
    else
      match FindComment(cs[1..], id)
      case None => None
      case Some(i) => Some(i + 1)
  }

  /** A ticket id larger than every id in the collection: the stand-in for
      a newly generated ObjectId. */
  function NextTicketId(ts: seq<Ticket>): (n: Id)
    ensures forall t :: t in ts ==> t.id < n
  {
    if ts == [] then 0
    else
      var m := NextTicketId(ts[1..]);
      if ts[0].id < m then m else ts[0].id + 1
  }

  function NextCommentId(cs: seq<Comment>): (n: Id)
    ensures forall c :: c in cs ==> c.id < n
  {
    if cs == [] then 0
    else
      var m := NextCommentId(cs[1..]);
      if cs[0].id < m then m else cs[0].id + 1
  }

  ghost predicate UniqueTicketIds(ts: seq<Ticket>) {
    forall i, j :: 0 <= i < j < |ts| ==> ts[i].id != ts[j].id
  }

  ghost predicate UniqueCommentIds(cs: seq<Comment>) {
    forall i, j :: 0 <= i < j < |cs| ==> cs[i].id != cs[j].id
  }

  /** The store invariant the database maintains: `_id` is unique within
      each collection. */
  ghost predicate Valid(s: Store) {
    UniqueTicketIds(s.tickets) && UniqueCommentIds(s.comments)
  }

  /** With unique ids, `findById` returns the one ticket carrying the id. */
  lemma {:induction false} FindTicketUnique(ts: seq<Ticket>, i: nat)
    requires UniqueTicketIds(ts) && i < |ts|
    ensures FindTicket(ts, ts[i].id) == Some(ts[i])
  {
    if i > 0 {
      assert ts[0].id != ts[i].id;
      FindTicketUnique(ts[1..], i - 1);
    }
  }
}

=== FILE: grouping.dfy ===
/** The `$group ... count: { $sum: 1 }` stage and the `reduce` that turns
    its output into a JSON object, over in-memory sequences. */
module Grouping {

  /** One output document of a counting group stage: `{ _id: key, count }`. */
  datatype Entry<K> = Entry(key: K, count: nat)

  function Sum<K>(es: seq<Entry<K>>): nat {
    if es == [] then 0 else es[0].count + Sum(es[1..])
  }

  function Keys<K>(es: seq<Entry<K>>): set<K> {
    set e | e in es :: e.key
  }

  ghost predicate DistinctKeys<K>(es: seq<Entry<K>>) {
    forall i, j :: 0 <= i < j < |es| ==> es[i].key != es[j].key
  }

  /** The count of the first entry with key `k`, or 0 when there is none. */
  function Lookup<K(==)>(es: seq<Entry<K>>, k: K): nat {
    if es == [] then 0 else if es[0].key == k then es[0].count else Lookup(es[1..], k)
  }

  lemma {:induction false} SumAppend<K>(a: seq<Entry<K>>, b: seq<Entry<K>>)
    ensures Sum(a + b) == Sum(a) + Sum(b)
  {
    if a != [] {
      assert (a + b)[0] == a[0];
      assert (a + b)[1..] == a[1..] + b;
      SumAppend(a[1..], b);
    } else {
      assert a + b == b;
    }
  }

  /** With distinct keys, the count stored under an entry's key is that
      entry's count. */
  lemma {:induction false} LookupDistinct<K>(es: seq<Entry<K>>, i: nat)
    requires DistinctKeys(es) && i < |es|
    ensures Lookup(es, es[i].key) == es[i].count
  {
    if i > 0 {
      assert es[0].key != es[i].key;
      LookupDistinct(es[1..], i - 1);
    }
  }

  lemma {:induction false} LookupAbsent<K>(es: seq<Entry<K>>, k: K)
    requires k !in Keys(es)
    ensures Lookup(es, k) == 0
  {
    if es != [] {
      assert es[0] in es;
      assert Keys(es[1..]) <= Keys(es);
      LookupAbsent(es[1..], k);
    }
  }

  /** A permutation of the entries has the same total. */
  lemma {:induction false} SumPermutation<K>(a: seq<Entry<K>>, b: seq<Entry<K>>)
    requires multiset(a) == multiset(b)
    ensures Sum(a) == Sum(b)
    decreases |a|
  {
    if a != [] {
      assert a[0] in multiset(b);
      var k :| 0 <= k < |b| && b[k] == a[0];
      var rest := b[..k] + b[k + 1..];
      MultisetRemove(b, k);
      assert a == [a[0]] + a[1..];
      assert multiset(a[1..]) == multiset(a) - multiset{a[0]};
      SumPermutation(a[1..], rest);
      SumRemove(b, k);
    }
  }

  /** Removing one position removes one occurrence of its element. */
  lemma MultisetRemove<T>(s: seq<T>, k: nat)
    requires k < |s|
    ensures multiset(s[..k] + s[k + 1..]) == multiset(s) - multiset{s[k]}
  {
    assert s == s[..k] + [s[k]] + s[k + 1..];
  }

  /** The total of a sequence is one entry's count plus the total of the rest. */
  lemma SumRemove<K>(b: seq<Entry<K>>, k: nat)
    requires k < |b|
    ensures Sum(b) == b[k].count + Sum(b[..k] + b[k + 1..])
  {
    var mid := [b[k]] + b[k + 1..];
    SumAppend(b[..k], mid);
    SumAppend(b[..k], b[k + 1..]);
    assert mid[0] == b[k] && mid[1..] == b[k + 1..];
    assert Sum(mid) == b[k].count + Sum(b[k + 1..]);
    assert b[..k] + mid == b;
  }

  lemma KeysPermutation<K>(a: seq<Entry<K>>, b: seq<Entry<K>>)
    requires multiset(a) == multiset(b)
    ensures Keys(a) == Keys(b)
  {
    forall e ensures e in a <==> e in b {
      assert e in a <==> e in multiset(a);
      assert e in b <==> e in multiset(b);
    }
  }

  lemma KeysConcat<K>(a: seq<Entry<K>>, b: seq<Entry<K>>)
    ensures Keys(a + b) == Keys(a) + Keys(b)
  {
    forall e ensures e in a + b <==> e in a || e in b {
    }
  }

  lemma {:induction false} DistinctKeysMultiplicity<K>(es: seq<Entry<K>>, e: Entry<K>)
    requires DistinctKeys(es)
    ensures multiset(es)[e] <= 1
  {
    if es != [] {
      assert es == [es[0]] + es[1..];
      DistinctKeysMultiplicity(es[1..], e);
      if es[0] == e {
        forall j | 0 <= j < |es[1..]| ensures es[1..][j] != e {
          assert es[0].key != es[j + 1].key;
        }
      }
    }
  }

  /** An element at two positions occurs at least twice. */
  lemma MultiplicityOfRepeat<T>(s: seq<T>, i: nat, j: nat)
    requires i < j < |s|
    ensures s[i] == s[j] ==> multiset(s)[s[j]] >= 2
  {
    assert s == s[..j] + [s[j]] + s[j + 1..];
    assert s[i] in s[..j];
  }

  /** A permutation of entries with distinct keys has distinct keys. */
  lemma DistinctKeysPermutation<K>(a: seq<Entry<K>>, b: seq<Entry<K>>)
    requires multiset(a) == multiset(b) && DistinctKeys(a)
    ensures DistinctKeys(b)
  {
    forall i, j | 0 <= i < j < |b|
      ensures b[i].key != b[j].key
    {
      DistinctKeysMultiplicity(a, b[j]);
      MultiplicityOfRepeat(b, i, j);
      assert b[i] != b[j];
      assert b[i] in multiset(a) && b[j] in multiset(a);
      var p :| 0 <= p < |a| && a[p] == b[i];
      var q :| 0 <= q < |a| && a[q] == b[j];
      assert p != q;
      assert a[p].key != a[q].key;
    }
  }

  /** Counts one more document under key `k`. */
  function Bump<K(==)>(es: seq<Entry<K>>, k: K): seq<Entry<K>> {
    if es == [] then [Entry(k, 1)]
    else if es[0].key == k then [Entry(k, es[0].count + 1)] + es[1..]
    else [es[0]] + Bump(es[1..], k)
  }

  lemma {:induction false} BumpSum<K>(es: seq<Entry<K>>, k: K)
    ensures Sum(Bump(es, k)) == Sum(es) + 1
  {
    if es != [] && es[0].key != k {
      BumpSum(es[1..], k);
    }
  }

  lemma {:induction false} BumpKeys<K>(es: seq<Entry<K>>, k: K)
    ensures Keys(Bump(es, k)) == Keys(es) + {k}
  {
    if es != [] {
      assert es == [es[0]] + es[1..];
      KeysConcat([es[0]], es[1..]);
      if es[0].key == k {
        KeysConcat([Entry(k, es[0].count + 1)], es[1..]);
      } else {
        BumpKeys(es[1..], k);
        KeysConcat([es[0]], Bump(es[1..], k));
      }
    }
  }

  lemma {:induction false} BumpLookup<K>(es: seq<Entry<K>>, k: K, x: K)
    ensures Lookup(Bump(es, k), x) == Lookup(es, x) + (if x == k then 1 else 0)
  {
    if es != [] && es[0].key != k {
      BumpLookup(es[1..], k, x);
    }
  }

  lemma {:induction false} BumpDistinct<K>(es: seq<Entry<K>>, k: K)
    requires DistinctKeys(es)
    ensures DistinctKeys(Bump(es, k))
  {
    if es != [] && es[0].key != k {
      var tail := Bump(es[1..], k);
      BumpDistinct(es[1..], k);
      BumpKeys(es[1..], k);
      var r := [es[0]] + tail;
      forall j | 0 < j < |r| ensures r[0].key != r[j].key {
        assert r[j] == tail[j - 1];
        assert r[j].key in Keys(es[1..]) + {k};
        if r[j].key != k {
          var e :| e in es[1..] && e.key == r[j].key;
          var m :| 0 <= m < |es[1..]| && es[1..][m] == e;
          assert es[0].key != es[m + 1].key;
        }
      }
    }
  }

  lemma {:induction false} BumpPositive<K>(es: seq<Entry<K>>, k: K)
    requires forall e :: e in es ==> e.count > 0
    ensures forall e :: e in Bump(es, k) ==> e.count > 0
  {
    if es != [] && es[0].key != k {
      BumpPositive(es[1..], k);
    }
  }

  /** Counts the occurrences of each key, in order of first occurrence. */
  function Group<K(==,!new)>(keys: seq<K>): (r: seq<Entry<K>>)
    ensures DistinctKeys(r)
    ensures Keys(r) == set k | k in keys
    ensures forall k :: Lookup(r, k) == multiset(keys)[k]
    ensures forall e :: e in r ==> e.count > 0
    ensures Sum(r) == |keys|
  {
    if keys == [] then []
    else
      var n := |keys| - 1;
      assert keys == keys[..n] + [keys[n]];
      var prev := Group(keys[..n]);
      BumpSum(prev, keys[n]);
      BumpKeys(prev, keys[n]);
      BumpDistinct(prev, keys[n]);
      BumpPositive(prev, keys[n]);
      forall x ensures Lookup(Bump(prev, keys[n]), x) == multiset(keys)[x] {
        BumpLookup(prev, keys[n], x);
      }
      Bump(prev, keys[n])
  }

  /** Every group entry counts exactly the occurrences of its key. */
  lemma GroupCounts<K(!new)>(keys: seq<K>)
    ensures forall e :: e in Group(keys) ==> e.count == multiset(keys)[e.key]
  {
    var r := Group(keys);
    forall e | e in r ensures e.count == multiset(keys)[e.key] {
      var i :| 0 <= i < |r| && r[i] == e;
      LookupDistinct(r, i);
    }
  }

  /** `obj[k] = v` on a JavaScript object, whose properties keep their
      insertion order: an existing property is overwritten in place, a new
      one is appended. */
  function Put(obj: seq<Entry<string>>, k: string, v: nat): (r: seq<Entry<string>>)
    ensures k !in Keys(obj) ==> r == obj + [Entry(k, v)]
    ensures k in Keys(obj) ==> |r| == |obj|
    ensures forall i :: 0 <= i < |obj| ==> r[i].key == obj[i].key
    ensures Keys(r) == Keys(obj) + {k}
    ensures Lookup(r, k) == v
    ensures forall x :: x != k ==> Lookup(r, x) == Lookup(obj, x)
  {
    if obj == [] then [Entry(k, v)]
    else
      assert obj == [obj[0]] + obj[1..];
      if obj[0].key == k then [Entry(k, v)] + obj[1..]
      else
        KeysConcat([obj[0]], obj[1..]);
        KeysConcat([obj[0]], Put(obj[1..], k, v));
        [obj[0]] + Put(obj[1..], k, v)
  }

  /** `entries.reduce((acc, item) => { acc[tag(item._id)] = item.count; return acc }, acc)`. */
  function PutAll<K>(acc: seq<Entry<string>>, es: seq<Entry<K>>, tag: K -> string): seq<Entry<string>>
    decreases |es|
  {
    if es == [] then acc
    else PutAll(Put(acc, tag(es[0].key), es[0].count), es[1..], tag)
  }

  /** The entries with each key replaced by its tag. */
  function Relabel<K>(es: seq<Entry<K>>, tag: K -> string): (r: seq<Entry<string>>)
    ensures |r| == |es|
  {
    if es == [] then [] else [Entry(tag(es[0].key), es[0].count)] + Relabel(es[1..], tag)
  }

  /** Each relabelled entry is the entry at the same position, tagged. */
  lemma {:induction false} RelabelIndex<K>(es: seq<Entry<K>>, tag: K -> string)
    ensures forall i :: 0 <= i < |es| ==> Relabel(es, tag)[i] == Entry(tag(es[i].key), es[i].count)
  {
    if es != [] {
      RelabelIndex(es[1..], tag);
      forall i | 1 <= i < |es| ensures Relabel(es, tag)[i] == Entry(tag(es[i].key), es[i].count) {
        assert Relabel(es, tag)[i] == Relabel(es[1..], tag)[i - 1];
        assert es[1..][i - 1] == es[i];
      }
    }
  }

  ghost predicate DistinctTags<K>(es: seq<Entry<K>>, tag: K -> string) {
    forall i, j :: 0 <= i < j < |es| ==> tag(es[i].key) != tag(es[j].key)
  }

  ghost predicate Injective<K(!new)>(tag: K -> string) {
    forall a, b :: tag(a) == tag(b) ==> a == b
  }

  lemma {:induction false} SumRelabel<K>(es: seq<Entry<K>>, tag: K -> string)
    ensures Sum(Relabel(es, tag)) == Sum(es)
  {
    if es != [] {
      assert Relabel(es, tag)[1..] == Relabel(es[1..], tag);
      SumRelabel(es[1..], tag);
    }
  }

  /** When no two entries share a tag and no tag is already a property
      of `acc`, the reduce only appends, one property per entry. */
  lemma {:induction false} PutAllAppends<K>(acc: seq<Entry<string>>, es: seq<Entry<K>>, tag: K -> string)
    requires DistinctTags(es, tag)
    requires forall i :: 0 <= i < |es| ==> tag(es[i].key) !in Keys(acc)
    ensures PutAll(acc, es, tag) == acc + Relabel(es, tag)
    decreases |es|
  {
    if es != [] {
      var head := Entry(tag(es[0].key), es[0].count);
      var tail := es[1..];
      PutAllStep(acc, es, tag);
      var acc' := Put(acc, head.key, head.count);
      assert PutAll(acc, es, tag) == PutAll(acc', tail, tag);
      PutAllAppends(acc', tail, tag);
      RelabelCons(acc, es, tag);
    }
  }

  lemma RelabelCons<K>(acc: seq<Entry<string>>, es: seq<Entry<K>>, tag: K -> string)
    requires es != []
    ensures acc + [Entry(tag(es[0].key), es[0].count)] + Relabel(es[1..], tag) == acc + Relabel(es, tag)
  {
    var head := Entry(tag(es[0].key), es[0].count);
    assert Relabel(es, tag) == [head] + Relabel(es[1..], tag);
    assert acc + [head] + Relabel(es[1..], tag) == acc + ([head] + Relabel(es[1..], tag));
  }

  /** One step of the reduce: the head's property is appended, and the
      rest of the entries still meet the requirements of `PutAllAppends`. */
  lemma PutAllStep<K>(acc: seq<Entry<string>>, es: seq<Entry<K>>, tag: K -> string)
    requires es != [] && DistinctTags(es, tag)
    requires forall i :: 0 <= i < |es| ==> tag(es[i].key) !in Keys(acc)
    ensures var head := Entry(tag(es[0].key), es[0].count);
            && Put(acc, head.key, head.count) == acc + [head]
            && DistinctTags(es[1..], tag)
            && forall i :: 0 <= i < |es[1..]| ==> tag(es[1..][i].key) !in Keys(acc + [head])
  {
    var head := Entry(tag(es[0].key), es[0].count);
    assert tag(es[0].key) !in Keys(acc);
    KeysSnoc(acc, head);
    DistinctTagsTail(es, tag);
    forall i | 0 <= i < |es[1..]| ensures tag(es[1..][i].key) !in Keys(acc + [head]) {
      assert es[1..][i] == es[i + 1];
    }
  }

  lemma KeysSnoc<K>(es: seq<Entry<K>>, e: Entry<K>)
    ensures Keys(es + [e]) == Keys(es) + {e.key}
  {
    KeysConcat(es, [e]);
    assert Keys([e]) == {e.key};
  }

  /** The tail of distinctly tagged entries is distinctly tagged, and none
      of its tags is the head's. */
  lemma DistinctTagsTail<K>(es: seq<Entry<K>>, tag: K -> string)
    requires es != [] && DistinctTags(es, tag)
    ensures DistinctTags(es[1..], tag)
    ensures forall i :: 0 <= i < |es[1..]| ==> tag(es[1..][i].key) != tag(es[0].key)
  {
    var tail := es[1..];
    forall i | 0 <= i < |tail| ensures tag(tail[i].key) != tag(es[0].key) {
      assert tail[i] == es[i + 1];
    }
    forall i, j | 0 <= i < j < |tail| ensures tag(tail[i].key) != tag(tail[j].key) {
      assert tail[i] == es[i + 1] && tail[j] == es[j + 1];
    }
  }

  lemma ReduceKeepsEntries<K(!new)>(es: seq<Entry<K>>, tag: K -> string)
    ensures DistinctKeys(es) && Injective(tag) ==>
      PutAll([], es, tag) == Relabel(es, tag) && Sum(Relabel(es, tag)) == Sum(es)
  {
    if DistinctKeys(es) && Injective(tag) {
      PutAllAppends([], es, tag);
      SumRelabel(es, tag);
    }
  }

  /** The JSON object a reduce builds from group output. With an injective
      labelling of distinct keys no property is overwritten, so the object
      keeps every entry and every count. */
  function ToObject<K(!new)>(es: seq<Entry<K>>, tag: K -> string): (obj: seq<Entry<string>>)
    ensures DistinctKeys(es) && Injective(tag) ==>
      && obj == Relabel(es, tag)
      && Sum(obj) == Sum(es)
      && (forall i :: 0 <= i < |es| ==> obj[i] == Entry(tag(es[i].key), es[i].count))
  {
    ReduceKeepsEntries(es, tag);
    RelabelIndex(es, tag);
    PutAll([], es, tag)
  }
}

=== FILE: sequences.dfy ===
/** Filtering and sorting of sequences: the in-memory counterparts of a
    query filter and of a `sort` stage. */
module Sequences {

  /** The elements of `s` that satisfy `p`, in their original order. */
  function Filter<T(!new)>(s: seq<T>, p: T -> bool): (r: seq<T>)
    ensures |r| <= |s|
    ensures forall x :: x in r <==> x in s && p(x)
    ensures forall x :: multiset(r)[x] == if p(x) then multiset(s)[x] else 0
  {
    if s == [] then []
    else
      assert s == [s[0]] + s[1..];
      if p(s[0]) then [s[0]] + Filter(s[1..], p) else Filter(s[1..], p)
  }

  /** `f` applied to every element. */
  function Map<T, U>(s: seq<T>, f: T -> U): (r: seq<U>)
    ensures |r| == |s|
    ensures forall i :: 0 <= i < |s| ==> r[i] == f(s[i])
  {
    if s == [] then [] else [f(s[0])] + Map(s[1..], f)
  }

  /** Filtering away only elements that do not map to `y` keeps every
      occurrence of `y` among the images. */
  lemma {:induction false} MapFilterCount<T(!new), U>(s: seq<T>, p: T -> bool, f: T -> U, y: U)
    requires forall x :: f(x) == y ==> p(x)
    ensures multiset(Map(Filter(s, p), f))[y] == multiset(Map(s, f))[y]
  {
    if s != [] {
      MapFilterCount(s[1..], p, f, y);
      assert Map(s, f) == [f(s[0])] + Map(s[1..], f);
      if p(s[0]) {
        assert Filter(s, p) == [s[0]] + Filter(s[1..], p);
        assert Map(Filter(s, p), f) == [f(s[0])] + Map(Filter(s[1..], p), f);
      }
    }
  }

  /** Every element satisfies exactly one of `p` and `q`, so the two
      filters partition the sequence. */
  lemma {:induction false} FilterPartition<T(!new)>(s: seq<T>, p: T -> bool, q: T -> bool)
    requires forall x :: q(x) == !p(x)
    ensures |Filter(s, p)| + |Filter(s, q)| == |s|
  {
    if s != [] {
      FilterPartition(s[1..], p, q);
    }
  }

  ghost predicate TotalPreorder<T(!new)>(le: (T, T) -> bool) {
    && (forall x, y :: le(x, y) || le(y, x))
    && (forall x, y, z :: le(x, y) && le(y, z) ==> le(x, z))
  }

  ghost predicate Sorted<T>(s: seq<T>, le: (T, T) -> bool) {
    forall i, j :: 0 <= i < j < |s| ==> le(s[i], s[j])
  }

  /** Inserts `x` before the first element it is not after. */
  function Insert<T>(x: T, s: seq<T>, le: (T, T) -> bool): (r: seq<T>)
    ensures multiset(r) == multiset(s) + multiset{x}
  {
    if s == [] then [x]
    else if le(x, s[0]) then [x] + s
    else
      assert s == [s[0]] + s[1..];
      [s[0]] + Insert(x, s[1..], le)
  }

  /** Everything `Insert` puts after the head is the inserted element or an
      element of the original tail. */
  lemma InsertElements<T>(x: T, s: seq<T>, le: (T, T) -> bool, y: T)
    requires y in Insert(x, s, le)
    ensures y == x || y in s
  {
    assert y in multiset(Insert(x, s, le));
  }

  lemma {:induction false} InsertSorted<T(!new)>(x: T, s: seq<T>, le: (T, T) -> bool)
    ensures TotalPreorder(le) && Sorted(s, le) ==> Sorted(Insert(x, s, le), le)
  {
    if TotalPreorder(le) && Sorted(s, le) && s != [] && !le(x, s[0]) {
      var tail := Insert(x, s[1..], le);
      InsertSorted(x, s[1..], le);
      assert le(s[0], x);
      var r := [s[0]] + tail;
      forall i, j | 0 <= i < j < |r|
        ensures le(r[i], r[j])
      {
        if i == 0 {
          InsertElements(x, s[1..], le, tail[j - 1]);
          if tail[j - 1] != x {
            var k :| 0 <= k < |s[1..]| && s[1..][k] == tail[j - 1];
            assert s[1 + k] == tail[j - 1];
          }
        } else {
          assert r[i] == tail[i - 1] && r[j] == tail[j - 1];
        }
      }
    }
  }

  /** Insertion sort. Ties keep no promised order: the contract states only
      that the result is an ordered permutation of the input. */
  function Sort<T(!new)>(s: seq<T>, le: (T, T) -> bool): (r: seq<T>)
    ensures multiset(r) == multiset(s)
    ensures |r| == |s|
    ensures forall x :: x in r <==> x in s
    ensures TotalPreorder(le) ==> Sorted(r, le)
  {
    if s == [] then []
    else
      assert s == [s[0]] + s[1..];
      var rest := Sort(s[1..], le);
      InsertSorted(s[0], rest, le);
      var r := Insert(s[0], rest, le);
      assert forall x :: x in r <==> x in multiset(r);
      assert forall x :: x in s <==> x in multiset(s);
      r
  }
}

=== FILE: text.dfy ===
/** String operations the controllers rely on: case-insensitive substring
    search, the ordering a string sort uses, `startsWith` and `split`. */
module Text {

  /** ASCII lower-casing of one character; other characters are unchanged. */
  function LowerChar(c: char): char {
    if 'A' <= c <= 'Z' then (c as int + 32) as char else c
  }

  function Lower(s: string): (r: string)
    ensures |r| == |s|
  {
    seq(|s|, i requires 0 <= i < |s| => LowerChar(s[i]))
  }

  /** Two strings are equal up to ASCII case. */
  predicate EqualIgnoringCase(a: string, b: string) {
    |a| == |b| && forall i :: 0 <= i < |a| ==> LowerChar(a[i]) == LowerChar(b[i])
  }

  predicate StartsWith(s: string, prefix: string) {
    |prefix| <= |s| && s[..|prefix|] == prefix
  }

  /** `pat` occurs in `s` at position `i`. */
  ghost predicate OccursAt(pat: string, s: string, i: int) {
    0 <= i && i + |pat| <= |s| && s[i..i + |pat|] == pat
  }

  /** Substring search, scanning left to right. */
  function Contains(s: string, pat: string): (b: bool)
    ensures b <==> exists i :: OccursAt(pat, s, i)
    decreases |s|
  {
    if |pat| > |s| then
      assert forall i :: !OccursAt(pat, s, i);
      false
    else if s[..|pat|] == pat then
      assert OccursAt(pat, s, 0);
      true
    else
      var b := Contains(s[1..], pat);
      assert b ==> exists i :: OccursAt(pat, s, i) by {
        if b {
          var i :| OccursAt(pat, s[1..], i);
          assert s[1..][i..i + |pat|] == s[i + 1..i + 1 + |pat|];
          assert OccursAt(pat, s, i + 1);
        }
      }
      assert (exists i :: OccursAt(pat, s, i)) ==> b by {
        if exists i :: OccursAt(pat, s, i) {
          var i :| OccursAt(pat, s, i);
          assert i != 0;
          assert s[1..][i - 1..i - 1 + |pat|] == s[i..i + |pat|];
          assert OccursAt(pat, s[1..], i - 1);
        }
      }
      b
  }

  /** The `$regex` match with option "i" on a plain search text: `search`
      occurs somewhere in `text`, ignoring ASCII case. */
  predicate MatchesIgnoringCase(text: string, search: string) {
    Contains(Lower(text), Lower(search))
  }

  /** `search` occurs in `text` at position `i` up to ASCII case. */
  ghost predicate OccursAtIgnoringCase(search: string, text: string, i: int) {
    0 <= i && i + |search| <= |text| && EqualIgnoringCase(text[i..i + |search|], search)
  }

  /** The lower-casing search agrees with a position-wise case-insensitive
      comparison. */
  lemma MatchesIgnoringCaseSpec(text: string, search: string)
    ensures MatchesIgnoringCase(text, search) <==> exists i :: OccursAtIgnoringCase(search, text, i)
  {
    var lt, ls := Lower(text), Lower(search);
    forall i
      ensures OccursAt(ls, lt, i) <==> OccursAtIgnoringCase(search, text, i)
    {
      if 0 <= i && i + |search| <= |text| {
        if OccursAt(ls, lt, i) {
          forall k | 0 <= k < |search|
            ensures LowerChar(text[i..i + |search|][k]) == LowerChar(search[k])
          {
            assert lt[i..i + |ls|][k] == ls[k];
          }
        }
        if EqualIgnoringCase(text[i..i + |search|], search) {
          forall k | 0 <= k < |ls|
            ensures lt[i..i + |ls|][k] == ls[k]
          {
            assert text[i..i + |search|][k] == text[i + k];
          }
        }
      }
    }
  }

  /** Binary (code-unit) lexicographic order, as a string sort uses. */
  predicate StrLe(a: string, b: string)
    decreases |a|
  {
    if a == [] then true
    else if b == [] then false
    else if a[0] != b[0] then a[0] < b[0]
    else StrLe(a[1..], b[1..])
  }

  lemma {:induction false} StrLeTotal(a: string, b: string)
    ensures StrLe(a, b) || StrLe(b, a)
    decreases |a|
  {
    if a != [] && b != [] && a[0] == b[0] {
      StrLeTotal(a[1..], b[1..]);
    }
  }

  lemma {:induction false} StrLeTransitive(a: string, b: string, c: string)
    requires StrLe(a, b) && StrLe(b, c)
    ensures StrLe(a, c)
    decreases |a|
  {
    if a != [] && b != [] && c != [] && a[0] == b[0] && b[0] == c[0] {
      StrLeTransitive(a[1..], b[1..], c[1..]);
    }
  }

  /** `parts` joined back together with `sep` between consecutive parts. */
  function Join(parts: seq<string>, sep: char): string
    requires |parts| >= 1
  {
    if |parts| == 1 then parts[0] else parts[0] + [sep] + Join(parts[1..], sep)
  }

  /** JavaScript `s.split(sep)` for a one-character separator: the maximal
      separator-free pieces, empty pieces included. */
  function Split(s: string, sep: char): (parts: seq<string>)
    ensures |parts| >= 1
    ensures forall i :: 0 <= i < |parts| ==> sep !in parts[i]
    ensures Join(parts, sep) == s
  {
    if s == [] then [""]
    else
      var rest := Split(s[1..], sep);
      if s[0] == sep then
        assert Join([""] + rest, sep) == [sep] + Join(rest, sep) by {
          assert ([""] + rest)[1..] == rest;
        }
        [""] + rest
      else
        var parts := [[s[0]] + rest[0]] + rest[1..];
        assert Join(parts, sep) == [s[0]] + Join(rest, sep) by {
          if |rest| > 1 {
            assert parts[1..] == rest[1..];
          }
        }
        parts
  }

  /** The characters of `s` before its first `sep`. */
  function Before(s: string, sep: char): (r: string)
    ensures sep !in r
    ensures StartsWith(s, r)
    ensures |r| == |s| || s[|r|] == sep
  {
    if s == [] || s[0] == sep then [] else [s[0]] + Before(s[1..], sep)
  }

  /** The first piece of a split is the text before the first separator. */
  lemma {:induction false} SplitFirst(s: string, sep: char)
    ensures Split(s, sep)[0] == Before(s, sep)
  {
    if s != [] && s[0] != sep {
      SplitFirst(s[1..], sep);
    }
  }

  /** Splitting after a separator-free prefix and one separator yields the
      prefix as a piece of its own, followed by the pieces of the rest. */
  lemma {:induction false} SplitAfter(p: string, sep: char, rest: string)
    requires sep !in p
    ensures Split(p + [sep] + rest, sep) == [p] + Split(rest, sep)
  {
    if p == [] {
      assert p + [sep] + rest == [sep] + rest;
      assert ([sep] + rest)[1..] == rest;
    } else {
      var s := p + [sep] + rest;
      assert s[1..] == p[1..] + [sep] + rest;
      SplitAfter(p[1..], sep, rest);
      assert [p[0]] + p[1..] == p;
    }
  }
}

=== FILE: tickets.dfy ===
/** The ticket controller: creation with its "ticket created" event, the
    filtered, sorted and role-projected listing, and the scoped single
    fetch. */
module Tickets {
  import opened Common
  import opened Sequences
  import opened Text
  import opened Domain

  const MSG_TITLE_REQUIRED := "Title and description are required"

  // ---------------------------------------------------------------- create

  /** A ticket as the schema defaults it: status TODO, no priority, nobody
      assigned, no skills. */
  function NewTicket(id: Id, caller: Identity, title: string, description: string, now: int): Ticket {
    Ticket(id, title, description, Some(Todo), None, caller.id, None, [], now)
  }

  /** Validates, persists, then hands the creation event to the transport.
      `sendSucceeds` is the transport's verdict; a failed send turns the
      response into a 500 but the ticket stays persisted. */
  function CreateTicket(s: Store, caller: Identity, title: Option<string>, description: Option<string>,
                        now: int, sendSucceeds: bool): (h: Handled<Ticket>)
    ensures !Present(title) || !Present(description) ==>
              h == Handled(Failure(BAD_REQUEST, MSG_TITLE_REQUIRED), s)
    ensures Present(title) && Present(description) ==>
              && h.store.comments == s.comments
              && h.store.users == s.users
              && |h.store.tickets| == |s.tickets| + 1
              && h.store.tickets[..|s.tickets|] == s.tickets
              && var t := h.store.tickets[|s.tickets|];
                 && t.createdBy == caller.id
                 && t.title == title.value
                 && t.description == description.value
                 && t.status == Some(Todo) && t.priority.None? && t.assignedTo.None?
                 && t.relatedSkills == [] && t.createdAt == now
                 && (forall u :: u in s.tickets ==> u.id != t.id)
                 && (sendSucceeds ==>
                       && h.response == Success(CREATED, t)
                       && h.store.events == s.events + [Event(TICKET_CREATED, t.id, t.title, t.description, caller.id)])
                 && (!sendSucceeds ==>
                       && h.response == Failure(INTERNAL_ERROR, MSG_INTERNAL)
                       && h.store.events == s.events)
  {
    if !Present(title) || !Present(description) then
      Handled(Failure(BAD_REQUEST, MSG_TITLE_REQUIRED), s)
    else
      var t := NewTicket(NextTicketId(s.tickets), caller, title.value, description.value, now);
      var persisted := s.(tickets := s.tickets + [t]);
      if sendSucceeds then
        Handled(Success(CREATED, t),
                persisted.(events := s.events + [Event(TICKET_CREATED, t.id, t.title, t.description, caller.id)]))
      else
        Handled(Failure(INTERNAL_ERROR, MSG_INTERNAL), persisted)
  }

  /** Creation keeps ticket ids unique. */
  lemma CreateTicketPreservesValid(s: Store, caller: Identity, title: Option<string>, description: Option<string>,
                                   now: int, sendSucceeds: bool)
    requires Valid(s)
    ensures Valid(CreateTicket(s, caller, title, description, now, sendSucceeds).store)
  {
    var ts := CreateTicket(s, caller, title, description, now, sendSucceeds).store.tickets;
    if Present(title) && Present(description) {
      forall i, j | 0 <= i < j < |ts| ensures ts[i].id != ts[j].id {
        if j == |s.tickets| {
          assert ts[i] == s.tickets[i];
          assert ts[i] in s.tickets;
        } else {
          assert ts[i] == s.tickets[i] && ts[j] == s.tickets[j];
        }
      }
    }
  }

  // ------------------------------------------------------------ selection

  /** The sortable fields; any other `sortBy` value is outside the model. */
  datatype SortField = CreatedAt | Title | Description | StatusField | PriorityField

  /** The list query string; every parameter is optional. */
  datatype TicketQuery = TicketQuery(
    search: Option<string>,
    status: Option<string>,
    priority: Option<string>,
    sortBy: Option<SortField>,
    order: Option<string>)

  function SortFieldOf(q: TicketQuery): SortField {
    if q.sortBy.Some? then q.sortBy.value else CreatedAt
  }

  /** Only the exact value "asc" sorts ascending; the default is "desc". */
  predicate Ascending(q: TicketQuery) {
    q.order == Some("asc")
  }

  predicate MatchesSearch(q: TicketQuery, t: Ticket) {
    !Present(q.search)
    || MatchesIgnoringCase(t.title, q.search.value)
    || MatchesIgnoringCase(t.description, q.search.value)
  }

  predicate MatchesStatus(q: TicketQuery, t: Ticket) {
    !Present(q.status) || (t.status.Some? && StatusName(t.status.value) == q.status.value)
  }

  predicate MatchesPriority(q: TicketQuery, t: Ticket) {
    !Present(q.priority) || (t.priority.Some? && PriorityName(t.priority.value) == q.priority.value)
  }

  /** The conjunction the list query builds: ownership for role `user`,
      then search, status and priority when given. */
  predicate Selected(caller: Identity, q: TicketQuery, t: Ticket) {
    && CanAccessTicket(caller, t)
    && MatchesSearch(q, t)
    && MatchesStatus(q, t)
    && MatchesPriority(q, t)
  }

  /** The stored text of an optional enum field, null sorting first. */
  predicate NullsFirstLe(a: Option<string>, b: Option<string>) {
    a.None? || (b.Some? && StrLe(a.value, b.value))
  }

  function StatusText(t: Ticket): Option<string> {
    if t.status.Some? then Some(StatusName(t.status.value)) else None
  }

  function PriorityText(t: Ticket): Option<string> {
    if t.priority.Some? then Some(PriorityName(t.priority.value)) else None
  }

  /** Ascending order of two tickets on one field. */
  predicate FieldLe(f: SortField, a: Ticket, b: Ticket) {
    match f
    case CreatedAt => a.createdAt <= b.createdAt
    case Title => StrLe(a.title, b.title)
    case Description => StrLe(a.description, b.description)
    case StatusField => NullsFirstLe(StatusText(a), StatusText(b))
    case PriorityField => NullsFirstLe(PriorityText(a), PriorityText(b))
  }

  function TicketOrder(f: SortField, asc: bool): (Ticket, Ticket) -> bool {
    (a: Ticket, b: Ticket) => if asc then FieldLe(f, a, b) else FieldLe(f, b, a)
  }

  lemma NullsFirstLeTotalPreorder()
    ensures forall a, b :: NullsFirstLe(a, b) || NullsFirstLe(b, a)
    ensures forall a, b, c :: NullsFirstLe(a, b) && NullsFirstLe(b, c) ==> NullsFirstLe(a, c)
  {
    forall a: Option<string>, b: Option<string> | a.Some? && b.Some?
      ensures NullsFirstLe(a, b) || NullsFirstLe(b, a)
    {
      StrLeTotal(a.value, b.value);
    }
    forall a: Option<string>, b: Option<string>, c: Option<string> |
      NullsFirstLe(a, b) && NullsFirstLe(b, c) && a.Some?
      ensures NullsFirstLe(a, c)
    {
      StrLeTransitive(a.value, b.value, c.value);
    }
  }

  lemma FieldLeTotalPreorder(f: SortField)
    ensures forall a, b :: FieldLe(f, a, b) || FieldLe(f, b, a)
    ensures forall a, b, c :: FieldLe(f, a, b) && FieldLe(f, b, c) ==> FieldLe(f, a, c)
  {
    NullsFirstLeTotalPreorder();
    forall a: Ticket, b: Ticket ensures FieldLe(f, a, b) || FieldLe(f, b, a) {
      StrLeTotal(a.title, b.title);
      StrLeTotal(a.description, b.description);
    }
    forall a: Ticket, b: Ticket, c: Ticket | FieldLe(f, a, b) && FieldLe(f, b, c)
      ensures FieldLe(f, a, c)
    {
      if f == Title {
        StrLeTransitive(a.title, b.title, c.title);
      } else if f == Description {
        StrLeTransitive(a.description, b.description, c.description);
      }
    }
  }

  lemma TicketOrderTotalPreorder(f: SortField, asc: bool)
    ensures TotalPreorder(TicketOrder(f, asc))
  {
    FieldLeTotalPreorder(f);
  }

  /** The tickets `Ticket.find(query).sort(sortOptions)` returns: exactly
      the stored tickets the query selects, each as often as it is stored,
      ordered on the sort field in the requested direction. */
  function SelectTickets(ts: seq<Ticket>, caller: Identity, q: TicketQuery): (r: seq<Ticket>)
    ensures forall t :: t in r <==> t in ts && Selected(caller, q, t)
    ensures forall t :: multiset(r)[t] == if Selected(caller, q, t) then multiset(ts)[t] else 0
    ensures Ascending(q) ==> forall i, j :: 0 <= i < j < |r| ==> FieldLe(SortFieldOf(q), r[i], r[j])
    ensures !Ascending(q) ==> forall i, j :: 0 <= i < j < |r| ==> FieldLe(SortFieldOf(q), r[j], r[i])
  {
    var matching := Filter(ts, (t: Ticket) => Selected(caller, q, t));
    TicketOrderTotalPreorder(SortFieldOf(q), Ascending(q));
    var r := Sort(matching, TicketOrder(SortFieldOf(q), Ascending(q)));
    r
  }

  // ----------------------------------------------------------- projection

  /** The three shapes a ticket is returned in. `Summary` is the `user`
      list projection, `Detail` the `user` single-fetch projection, and
      `Full` the staff projection with `assignedTo` populated. */
  datatype TicketView =
    | Summary(id: Id, title: string, description: string, status: Option<Status>,
              createdAt: int, priority: Option<Priority>)
    | Detail(id: Id, title: string, description: string, status: Option<Status>, createdAt: int)
    | Full(id: Id, title: string, description: string, status: Option<Status>,
           priority: Option<Priority>, createdBy: Id, assignedTo: Option<UserRef>,
           relatedSkills: seq<string>, createdAt: int)

  function SummaryView(t: Ticket): TicketView {
    Summary(t.id, t.title, t.description, t.status, t.createdAt, t.priority)
  }

  function DetailView(t: Ticket): TicketView {
    Detail(t.id, t.title, t.description, t.status, t.createdAt)
  }

  function FullView(users: seq<Account>, t: Ticket): TicketView {
    Full(t.id, t.title, t.description, t.status, t.priority, t.createdBy,
         Populate(users, t.assignedTo), t.relatedSkills, t.createdAt)
  }

  function ListView(users: seq<Account>, role: Role, t: Ticket): TicketView {
    if role == User then SummaryView(t) else FullView(users, t)
  }

  // ---------------------------------------------------------------- list

  /** GET /tickets: always 200; one view per selected ticket, in order,
      `Summary` for role `user` and `Full` for staff. */
  function GetTickets(s: Store, caller: Identity, q: TicketQuery): (r: Outcome<seq<TicketView>>)
    ensures r.Success? && r.code == OK
    ensures var sel := SelectTickets(s.tickets, caller, q);
            && |r.value| == |sel|
            && forall i :: 0 <= i < |sel| ==>
                 && r.value[i].id == sel[i].id
                 && r.value[i].title == sel[i].title
                 && (caller.role == User ==> r.value[i].Summary? && r.value[i].priority == sel[i].priority)
                 && (caller.role != User ==> r.value[i].Full? && r.value[i].assignedTo == Populate(s.users, sel[i].assignedTo))
  {
    Success(OK, Map(SelectTickets(s.tickets, caller, q), t => ListView(s.users, caller.role, t)))
  }

  /** A `user` lists only tickets it created, and sees no assignee. */
  lemma UserListsOnlyOwnTickets(s: Store, caller: Identity, q: TicketQuery)
    requires caller.role == User
    ensures forall v :: v in GetTickets(s, caller, q).value ==>
              v.Summary? && exists t :: t in s.tickets && t.id == v.id && t.createdBy == caller.id
  {
    var sel := SelectTickets(s.tickets, caller, q);
    var vs := GetTickets(s, caller, q).value;
    forall v | v in vs ensures v.Summary? && exists t :: t in s.tickets && t.id == v.id && t.createdBy == caller.id {
      var i :| 0 <= i < |vs| && vs[i] == v;
      assert sel[i] in sel;
    }
  }

  /** With a search text, every listed ticket matches it in its title or in
      its description, ignoring case; and every visible ticket that does
      (and passes the other filters) is listed. */
  lemma SearchSelectsTitleOrDescription(s: Store, caller: Identity, q: TicketQuery, t: Ticket)
    requires Present(q.search)
    requires t in s.tickets && CanAccessTicket(caller, t) && MatchesStatus(q, t) && MatchesPriority(q, t)
    ensures t in SelectTickets(s.tickets, caller, q) <==>
              || (exists i :: OccursAtIgnoringCase(q.search.value, t.title, i))
              || (exists i :: OccursAtIgnoringCase(q.search.value, t.description, i))
  {
    MatchesIgnoringCaseSpec(t.title, q.search.value);
    MatchesIgnoringCaseSpec(t.description, q.search.value);
  }

  /** A query with no search, status or priority lists every stored ticket
      to staff, each exactly once per stored copy. */
  lemma StaffUnfilteredListsEverything(s: Store, caller: Identity, q: TicketQuery)
    requires caller.role != User
    requires !Present(q.search) && !Present(q.status) && !Present(q.priority)
    ensures multiset(SelectTickets(s.tickets, caller, q)) == multiset(s.tickets)
  {
    var r := SelectTickets(s.tickets, caller, q);
    forall t ensures multiset(r)[t] == multiset(s.tickets)[t] {
      assert Selected(caller, q, t);
    }
  }

  /** A `user` sees a subset of what staff see for the same query. */
  lemma UserSelectionWithinStaffSelection(ts: seq<Ticket>, id: Id, staff: Role, q: TicketQuery, t: Ticket)
    requires staff != User
    requires t in SelectTickets(ts, Identity(id, User), q)
    ensures t in SelectTickets(ts, Identity(id, staff), q)
  {
  }

  // ----------------------------------------------------------- single

  /** GET /tickets/:id. Staff look the id up directly; a `user` looks up
      the id together with ownership, so a ticket it does not own is
      reported exactly like a missing one. */
  function GetTicket(s: Store, caller: Identity, id: Id): (r: Outcome<TicketView>)
    ensures r.Success? <==> exists t :: t in s.tickets && t.id == id && CanAccessTicket(caller, t)
    ensures r.Failure? ==> r == Failure(NOT_FOUND, MSG_TICKET_NOT_FOUND)
    ensures r.Success? ==>
              && r.code == OK
              && r.value.id == id
              && (caller.role == User <==> r.value.Detail?)
              && exists t :: t in s.tickets && t.id == id && CanAccessTicket(caller, t)
                   && (r.value.Full? ==> r.value == FullView(s.users, t))
                   && (r.value.Detail? ==> r.value == DetailView(t))
  {
    if caller.role != User then
      match FindTicket(s.tickets, id)
      case None => Failure(NOT_FOUND, MSG_TICKET_NOT_FOUND)
      case Some(t) => Success(OK, FullView(s.users, t))
    else
      match FindOwnedTicket(s.tickets, id, caller.id)
      case None => Failure(NOT_FOUND, MSG_TICKET_NOT_FOUND)
      case Some(t) => Success(OK, DetailView(t))
  }

  /** A `user` fetching someone else's ticket gets the very response a
      nonexistent id gets. */
  lemma ForeignTicketLooksMissing(s: Store, caller: Identity, t: Ticket, missing: Id)
    requires UniqueTicketIds(s.tickets)
    requires caller.role == User
    requires t in s.tickets && t.createdBy != caller.id
    requires forall u :: u in s.tickets ==> u.id != missing
    ensures GetTicket(s, caller, t.id) == GetTicket(s, caller, missing)
    ensures GetTicket(s, caller, t.id) == Failure(NOT_FOUND, MSG_TICKET_NOT_FOUND)
  {
    var i :| 0 <= i < |s.tickets| && s.tickets[i] == t;
    forall j | 0 <= j < |s.tickets| && j != i ensures s.tickets[j].id != t.id {
      if i < j { assert s.tickets[i].id != s.tickets[j].id; }
      else { assert s.tickets[j].id != s.tickets[i].id; }
    }
  }

  /** Staff fetch every stored ticket, populated. */
  lemma StaffFetchesAnyTicket(s: Store, caller: Identity, i: nat)
    requires UniqueTicketIds(s.tickets)
    requires caller.role != User && i < |s.tickets|
    ensures GetTicket(s, caller, s.tickets[i].id) == Success(OK, FullView(s.users, s.tickets[i]))
  {
    FindTicketUnique(s.tickets, i);
  }

  /** A ticket created by one `user` is listed for that user with the
      schema defaults, is invisible to another `user`, and reaches staff
      with no assignee. */
  lemma CreatedTicketVisibility(u1: Identity, u2: Identity, staff: Identity, title: string, description: string, now: int)
    requires u1.role == User && u2.role == User && u1.id != u2.id && staff.role != User
    requires title != "" && description != ""
    ensures var h := CreateTicket(Store([], [], [], []), u1, Some(title), Some(description), now, true);
            var none := TicketQuery(None, None, None, None, None);
            && h.response.Success?
            && GetTickets(h.store, u1, none).value ==
                 [Summary(h.response.value.id, title, description, Some(Todo), now, None)]
            && GetTickets(h.store, u2, none).value == []
            && |GetTickets(h.store, staff, none).value| == 1
            && GetTickets(h.store, staff, none).value[0].assignedTo.None?
  {
    var h := CreateTicket(Store([], [], [], []), u1, Some(title), Some(description), now, true);
    var none := TicketQuery(None, None, None, None, None);
    var t := h.response.value;
    assert h.store.tickets == [t];
    SelectOne(t, u1, none);
    SelectOne(t, u2, none);
    SelectOne(t, staff, none);
  }

  /** Over a single stored ticket, the query lists it iff it is selected. */
  lemma SelectOne(t: Ticket, caller: Identity, q: TicketQuery)
    ensures SelectTickets([t], caller, q) == if Selected(caller, q, t) then [t] else []
  {
    var r := SelectTickets([t], caller, q);
    var m := if Selected(caller, q, t) then multiset{t} else multiset{};
    assert multiset(r) == m by {
      forall x ensures multiset(r)[x] == m[x] {}
    }
    assert |r| == |m|;
    if Selected(caller, q, t) {
      assert r[0] in multiset(r);
    }
  }
}
